=== FILE: README.md ===
# Movie file ingestion, modelled in Dafny

This project models the core of a Django application that imports movies from an uploaded
CSV or Excel file. The core has these parts:

- the upload form `UploadFileForm` (movies/forms.py). Its `clean_file` checks the size, the
  extension, the sniffed MIME type and a trial read of the file.
- the view `upload_file` (movies/views.py). It checks that the table exists and saves a
  temporary copy. It reads the file with pandas, lower-cases and strips the headers and
  checks for the `title`, `year` and `rating` columns. Each row becomes a `movie_data`
  dictionary, which is validated and turned into a `Movie`. The accepted records go to
  `bulk_create(ignore_conflicts=True)`.
- the `FileProcessor` helpers (movies/file_processor.py): `validate_file`, `process_file`,
  `validate_dataframe` with its alias lists, `convert_to_movies_data` and
  `create_movie_objects`.
- the `Movie` model (movies/models.py): the field bounds and defaults, the unique
  (title, year) constraint, `clean`, `save` (which runs `full_clean`), `rating_percentage`
  and `is_popular`.
- `handle_uploaded_file` (movies/utils.py).

Each part is one module: `UploadForm`, `UploadView`, `FileProcessor`, `Movies`,
`MovieStore` (the insert-or-skip of the unique constraint) and `UploadUtils`. They share:

- `Results`: `Option` and `Result`;
- `PyText`: Python's `strip`, `lower`, `os.path.splitext`, `pathlib` suffixes, `str()`, and
  `int()`/`float()` on text;
- `Cells`: pandas cells, tables, lookups and coercions;
- `Partitions`: the "keep the good rows, number the bad ones" split.

The three copies of the ingestion logic disagree with each other, and each is modelled as
written. Module `Copies` proves where they part: header normalisation, the case of the
suffix, the size limits and the earliest year.

The model uses no I/O. Every outside outcome is a parameter:

- what the pandas readers return, or which exception they raise;
- whether the `movies_movie` table exists;
- whether saving the temporary copy fails;
- whether the database fails during the insert;
- what `python-magic` sniffs;
- whether the first 1024 bytes decode as UTF-8.

The stored movies are a map from the (title, year) key to the record.

Behaviours of the code that the model keeps, which a reader might not expect:

- The view's success message reports `len(created_movies)`. With `ignore_conflicts=True`
  on MySQL, that is every record handed to `bulk_create`, not the number inserted. A
  re-upload therefore reports the same count again (`UploadView.ReuploadIsStable`), not 0.
- There are no partial-success or failure statuses. A run ends with a success message or
  with one error.
- Header aliases exist only in `FileProcessor`. They are compared case-sensitively, and the
  lists include the Arabic names.
- Country and language hold at most 100 characters, not 255.
- The view accepts years from 1888, while `create_movie_objects` accepts years from 1900.
  The form allows 15 MiB, while `validate_file` allows 10 MiB.

## Model

| member | source | states |
|---|---|---|
| UploadForm.MimeCheck | movies/forms.py:86-114 | The sniff passes exactly when python-magic reports a type on the allowed list. The early return for a zip-typed Excel file can never happen, because "application/zip" is already allowed. |
| UploadForm.MimeStage | movies/forms.py:85-121 | The MIME stage always lets the file through. A missing library, a sniffing failure and the mismatch rejection itself are all caught by the handlers. |
| UploadForm.FirstLine | movies/forms.py:129 | `split('\n')[0]` is the longest prefix without a newline: the whole text, or the text up to its first newline. |
| UploadForm.CsvCheck | movies/forms.py:127-135 | The CSV check passes exactly when the head decodes and its first line is not blank after stripping. A decoded head that fails is rejected as invalid_csv. |
| UploadForm.ExcelHandler | movies/forms.py:154-163 | After the inner handlers, an import failure is skipped. Every other exception, the empty-workbook rejection included, becomes unreadable_excel. |
| UploadForm.ContentStage | movies/forms.py:123-174 | The content stage passes exactly when the content is accepted: a CSV head that decodes with a non-blank first line, or a workbook whose first row is non-empty, or whose engine is missing. Only an undecodable CSV head gives encoding_error; every other failure gives unreadable_file. |
| UploadForm.CleanFile | movies/forms.py:43-176 | `clean_file` accepts exactly a named, non-empty file of at most 15 MiB with an allowed lower-cased extension and accepted content, and returns that file. Each error code has its own condition: missing_file (no file or empty name), file_too_large, empty_file and invalid_extension. For an allowed extension, the outcome is the content stage's. No other code is ever reported. |
| UploadForm.FieldClean | movies/forms.py:15-41 | The FileField checks and the FileExtensionValidator pass exactly when a file is present, named and non-empty, and its lower-cased pathlib suffix is csv, xls or xlsx. |
| UploadForm.IsValid | movies/forms.py:35-47 | `is_valid` succeeds only when `clean_file` does, and it returns the uploaded file. |
| UploadForm.AllowedExtensionPassesValidator | movies/forms.py:36-39 | Every extension `clean_file` allows also passes the extension validator, which reads the name through pathlib instead of os.path. |
| UploadForm.FormAcceptsWhatCleanFileAccepts | movies/forms.py:35-83 | The form accepts exactly the files `clean_file` accepts. The field checks before it add no condition. |
| UploadForm.FieldChecksShadowCleanFile | movies/forms.py:49-72 | Behind the field checks, a failing form never reports `clean_file`'s missing_file or empty_file. |
| UploadForm.CleanFileNeverReportsInnerCodes | movies/forms.py:110-174 | `clean_file` never reports invalid_mime_type, invalid_csv, invalid_excel or unreadable_excel. The outer handlers re-wrap them. |
| UploadForm.SniffIsIrrelevant | movies/forms.py:85-121 | Changing the sniffed MIME type never changes what `clean_file` returns. |
| PyText.Strip | movies/views.py:154 | `strip()` leaves no whitespace at either end and never lengthens the text. |
| PyText.StripPadded | movies/views.py:154 | Stripping removes exactly the whitespace padding around a trimmed core. |
| PyText.StripIdempotent | movies/models.py:151-152 | Stripping twice is the same as stripping once. |
| PyText.LowerIdempotent | movies/views.py:161 | Lower-casing twice is the same as lower-casing once. |
| PyText.Take | movies/views.py:172 | `s[:255]` is the first 255 characters of the text, or all of it when it is shorter. |
| PyText.SplitExt | movies/forms.py:76 | The `os.path.splitext` extension is empty, or it starts with a dot, ends the name, and holds no other dot and no slash. |
| PyText.SplitExtOfName | movies/forms.py:76 | For a stem that does not end in a dot or a slash, and an extension that is a dot followed by text without dots or slashes, the extension of stem + ext is ext. |
| PyText.PathSuffix | movies/forms.py:36-39 | The pathlib suffix is empty, or it is at least two characters long, starts with a dot and ends the name. |
| PyText.SplitExtIsPathSuffix | movies/forms.py:36-39 | Whenever splitext finds more than a bare dot, pathlib finds the same suffix. |
| PyText.NatToString | movies/views.py:172 | `str()` of a natural number is a non-empty digit string denoting that number. |
| PyText.ParseIntRoundTrip | movies/views.py:173 | `int(str(i)) == i` for every integer. |
| PyText.ParseFloatExtendsParseInt | movies/views.py:174 | In the model, where floats are exact reals, text that `int()` accepts `float()` also accepts, with the same value. Python agrees only for integers of magnitude at most 2^53 (see "## Left out"). |
| Cells.GetFindsColumn | movies/file_processor.py:85-87 | A lookup finds a column exactly when the header holds the name. Otherwise it raises KeyError. |
| Cells.GetFirstColumn | movies/views.py:172 | A lookup reads the cell under the first column with that name. A short row reads as missing. |
| Cells.Trunc | movies/views.py:173 | `int()` of a float rounds toward zero. |
| Cells.PyFloat | movies/file_processor.py:87 | `float()` of a missing cell is NaN. For a present cell it fails exactly when the text does not parse, and otherwise gives the parsed value. |
| Cells.RenameColumns | movies/views.py:154 | Renaming the headers maps each name in place and keeps the rows. |
| Cells.CoerceIntegerText | movies/views.py:173-174 | An integer written as text converts back to itself under `int()`. In the model, where floats are exact reals, it does so under `float()` too. Python agrees on the `float()` half only for magnitudes up to 2^53 (see "## Left out"). |
| Partitions.SplitFailuresSound | movies/views.py:198-199 | Every numbered failure names a failing position, offset by the base, together with its error. |
| Partitions.SplitFailuresComplete | movies/views.py:198-200 | Every failing position appears among the numbered failures. |
| Partitions.SplitFailuresOrdered | movies/views.py:169-200 | The numbered failures come in increasing position. |
| Partitions.SplitKeepsOrder | movies/views.py:196 | The k-th kept value is the success at the k-th success position. |
| Partitions.SuccessPositionsComplete | movies/views.py:169-196 | Every success position is listed. |
| Partitions.SuccessPositionsOrdered | movies/views.py:169-196 | The success positions increase. |
| Movies.NewMovie | movies/models.py:26-136 | A movie built from a title and a year has every other field at its declared default. Genre and director, which declare none, start as None. |
| Movies.LengthCheck | movies/models.py:33-47 | A nullable text field reports its violation exactly when it is longer than the bound. |
| Movies.KeyFieldViolations | movies/models.py:26-57 | Title and year report nothing exactly when the title holds 1 to 255 characters and the year lies in 1888..2100. |
| Movies.TextFieldViolations | movies/models.py:33-136 | Genre and director fit 255 characters, and country and language fit 100, exactly when no text violation is reported. |
| Movies.NumberFieldViolations | movies/models.py:59-110 | No numeric violation is reported exactly when each bound holds: runtime 0..1000 or None, rating 0..10, votes 0..4294967295, revenue ≥ 0 or None, metascore 0..100 or None. |
| Movies.FieldViolations | movies/models.py:26-136 | The field validators report nothing exactly when every declared bound holds. |
| Movies.Clean | movies/models.py:147-164 | `clean` strips title and director. A genre over 255 characters becomes its first 255 characters, `genre[:255]`, and a genre that fits is kept. The other fields are kept. It raises "title required" exactly for a blank stripped title, and "year required" exactly for a zero year with a title. |
| Movies.FullClean | movies/models.py:166-168 | A passing `full_clean` returns the record as `clean` leaves it. |
| Movies.FullCleanAccepts | movies/models.py:147-168 | `full_clean` passes exactly when the field bounds hold, the stripped title is not empty and no stored record has the cleaned key. |
| Movies.FullCleanReports | movies/models.py:147-168 | A failing `full_clean` reports a non-empty error set. The set holds every field violation, the error `clean` raised and the unique-constraint error when that fired. |
| Movies.FullCleanResult | movies/models.py:147-168 | A record that passes is stripped, keeps its genre, satisfies the field bounds and has a key no stored record has. |
| Movies.Save | movies/models.py:166-169 | `save` succeeds exactly when `full_clean` does, and it fails with `full_clean`'s errors. |
| Movies.SaveStoresCleanRecord | movies/models.py:166-169 | A successful `save` files the cleaned record under its own key. |
| Movies.SaveInserts | movies/models.py:166-169 | A successful `save` adds exactly one record, the cleaned one, under a key that was free. The store grows by one and every other record is unchanged. |
| Movies.InsertKeepsInvariants | movies/models.py:18-23 | Filing a record under its key keeps the store consistent. When the record satisfies the bounds, every stored record still does. |
| Movies.SaveKeepsConsistency | movies/models.py:18-23 | After a `save`, every record is still filed under its own (title, year). |
| Movies.SaveKeepsFieldBounds | movies/models.py:166-169 | After a `save`, every stored record still satisfies the field bounds. |
| Movies.RatingPercentage | movies/models.py:171-174 | `rating_percentage` equals rating × 10, with the zero case agreeing, and lies in 0..100 for a valid rating. |
| Movies.PopularityIsMonotone | movies/models.py:176-179 | More votes and a higher rating never lose popularity. An unpopular movie has at most 10000 votes and a rating below 8. |
| Movies.ZeroYearIsMissing | movies/models.py:163-164 | Year 0 with a title makes `clean` raise "year required". `full_clean` then reports both that error and the year validator's. |
| Movies.DefaultsPassValidators | movies/models.py:59-136 | A record with every field but title and year at its default passes the validators exactly when title and year do. |
| MovieStore.KeysOf | movies/views.py:206-211 | A batch's key set holds exactly the keys of its records. |
| MovieStore.InsertOrSkip | movies/views.py:206-211 | Insert-or-skip never changes or removes a stored record. |
| MovieStore.InsertOrSkipKeys | movies/views.py:206-211 | Afterwards, the stored keys are the old keys plus the batch's keys. |
| MovieStore.InsertOrSkipFirstWins | movies/views.py:206-211 | A key new to the store holds the first record of the batch that carries it. |
| MovieStore.InsertOrSkipConsistent | movies/models.py:18-23 | Insert-or-skip keeps every record filed under its own key. |
| MovieStore.InsertOrSkipOfStoredKeys | movies/views.py:206-211 | A batch whose keys are all stored already changes nothing. |
| MovieStore.InsertOrSkipIdempotent | movies/views.py:206-211 | Inserting the same batch twice stores what inserting it once stores. |
| MovieStore.InsertOrSkipGrowth | movies/views.py:206-211 | The store grows by exactly the number of batch keys it did not hold, and never by more than the batch size. |
| MovieStore.KeysOfSize | movies/views.py:206-211 | A batch has at most as many keys as records. |
| UploadView.NormalizeHeader | movies/views.py:154 | `strip().lower()` of a header is never longer than the header. |
| UploadView.NormalizeColumns | movies/views.py:154 | Normalisation maps each header in place and keeps the rows. |
| UploadView.MissingColumns | movies/views.py:160-161 | A required name is missing exactly when no lower-cased header equals it. |
| UploadView.Cut | movies/views.py:172 | `str(v).strip()[:255]` is the first 255 characters of the stripped text, or all of it when the text is shorter. |
| UploadView.IntOr | movies/views.py:173 | A missing cell gives the default. A present cell gives its `int()`, and the entry fails exactly when `int()` raises. |
| UploadView.RealOr | movies/views.py:174 | A missing cell gives the default. A present cell gives its `float()`, and the entry fails exactly when `float()` raises. |
| UploadView.CellsOf | movies/views.py:171-181 | The row's repeated names are exactly the dictionary names that the header holds twice or more. |
| UploadView.NotNAOf | movies/views.py:172 | `pd.notna` as a condition works exactly for a name that is not repeated. For a repeated name (a Series) it raises the ambiguity error. |
| UploadView.TextEntry | movies/views.py:175-176 | A text entry is the first 255 characters of the stripped text of a present cell or '' for a missing one. It fails exactly when its column is repeated. |
| UploadView.TitleEntry | movies/views.py:172 | The title is None exactly for a missing cell, and otherwise the first 255 characters of its stripped text. It fails exactly when "title" is repeated. |
| UploadView.YearEntry | movies/views.py:173 | The year is None exactly for a missing cell, and otherwise its `int()`. It fails exactly when "year" is repeated or the cell does not convert, with the matching error. |
| UploadView.IntEntry | movies/views.py:177-180 | An `int()` entry with default 0. It fails exactly when the column is repeated or the cell does not convert. |
| UploadView.RealEntry | movies/views.py:179 | A `float()` entry with default 0.0. It fails exactly when the column is repeated or the cell does not convert. |
| UploadView.BuildFromCells | movies/views.py:171-181 | The dictionary only fails with a conversion or ambiguity error. When it is built, its text entries fit 255 characters. |
| UploadView.BuildFailsAt | movies/views.py:171-181 | If the entries before i all read and entry i does not, the dictionary fails with entry i's error. |
| UploadView.BuildSucceeds | movies/views.py:171-181 | If every entry reads, the dictionary is built. |
| UploadView.BuildOrder | movies/views.py:171-181 | The dictionary is built exactly when every entry reads. Otherwise its error is that of the first entry, in literal order, that raises. |
| UploadView.BuildRecordDefaults | movies/views.py:171-181 | A built dictionary holds each cell's value, or the default for a missing cell: no title, no year, rating 0.0, empty genre and director, and zero counts. |
| UploadView.Validate | movies/views.py:184-194 | A dictionary passes exactly when it has a non-empty title, a year in 1888..2100 and a rating in 0..10. Otherwise the first failing check, in source order, names the error. |
| UploadView.MovieOf | movies/views.py:196 | `Movie(**movie_data)` carries the dictionary's fields. Every other field has its model default. |
| UploadView.ProcessRow | movies/views.py:169-199 | An accepted row's record has a title of 1 to 255 characters, a year and rating in range, and fitting genre and director. |
| UploadView.ProcessRowOutcome | movies/views.py:171-199 | A row is accepted exactly when its dictionary builds and passes the checks. Otherwise its error is the first failing entry or, failing that, the first failing check. |
| UploadView.ProcessRows | movies/views.py:166-200 | Every row ends up either kept or reported. |
| UploadView.ProcessRowsErrorsSound | movies/views.py:198-199 | Every reported (index + 2, reason) names a failing row and that row's error. |
| UploadView.ProcessRowsErrorsComplete | movies/views.py:198-200 | Every failing row is reported. A bad row does not stop the rows after it. |
| UploadView.ProcessRowsErrorsOrdered | movies/views.py:169-199 | The reports come in row order. |
| UploadView.ProcessRowsKept | movies/views.py:196 | The k-th kept record is the record of the k-th accepted row. |
| UploadView.ProcessRowsKeptPositions | movies/views.py:169-196 | The accepted rows' positions increase, and every accepted row is among them. |
| UploadView.OutcomeBounds | movies/views.py:184-196 | An accepted row's record satisfies the loop's checks. |
| UploadView.ProcessRowsKeptBounds | movies/views.py:184-196 | Every kept record satisfies the loop's checks. |
| UploadView.ReadTable | movies/views.py:134-157 | A ".csv" file is read by the CSV reader. Any other file is read with the extension's Excel engine, and only if that fails, with any engine. Reading succeeds exactly when the chosen reader parses a non-empty table, and then returns that table with normalised headers. An empty table is the "no data" error, and every failure is a read error. |
| UploadView.ReadTableConsultsOnlyItsReader | movies/views.py:135-148 | A CSV upload does not depend on the Excel readers, and an Excel upload does not depend on the CSV reader. The any-engine retry matters only when the extension's engine fails, and then it decides alone. |
| UploadView.ImportTable | movies/views.py:159-220 | The run fails with the missing names exactly when a required column is missing. It then fails with "no valid rows" exactly when no row is kept. It then fails with a database error exactly when the database fails, and otherwise is imported. An import stores insert-or-skip of the kept records and reports their count and the skipped rows. A failure stores nothing. |
| UploadView.UploadFile | movies/views.py:101-238 | A GET shows the form. An invalid form is rejected exactly when `is_valid` fails. A missing table and a failed temporary save each stop the run. Otherwise a read error stops the run, or the read table is imported. Nothing is stored unless the run is imported, and an import keeps every stored record. |
| UploadView.MissingColumnsIgnoreRows | movies/views.py:160-163 | When a required column is missing, the run fails the same way whatever the rows hold. |
| UploadView.ImportedExactlyWhen | movies/views.py:159-220 | A normalised table is imported exactly when no required column is missing, some row is kept and the database does not fail. |
| UploadView.UploadImportsExactlyWhen | movies/views.py:101-220 | A request ends with the success message exactly when all of these hold: it is a valid POST, the table exists, the temporary save succeeds, the file reads into a table with the required columns and at least one acceptable row, and the database does not fail. |
| UploadView.RepeatedNameRejectsRow | movies/views.py:171-199 | A header that repeats a name the dictionary reads makes every row fail. A repeated title always fails with the ambiguity error. |
| UploadView.RepeatedNameFailsRun | movies/views.py:169-203 | With such a repeated name, the run fails with "no valid rows" and stores nothing. |
| UploadView.TitleHeadersCollide | movies/views.py:154-203 | Two headers that normalise to "title" make the run fail with "no valid rows", although every required column is present. |
| UploadView.ImportStoresKeptRecords | movies/views.py:206-211 | An import adds exactly the kept records' keys and leaves the old records alone. It keeps the store consistent and grows it by the number of new keys. |
| UploadView.ImportAddsOnlyCheckedRecords | movies/views.py:184-211 | Every record an import adds is a kept record that passed the loop's checks. |
| UploadView.InsertedComeFromBatch | movies/views.py:206-211 | Every record insert-or-skip adds comes from the batch. |
| UploadView.ReuploadIsStable | movies/views.py:206-216 | Uploading the same file again stores nothing new and gives the same message, with the same count and skipped rows. |
| UploadView.HeadersAreNormalised | movies/views.py:154-161 | Normalisation drops the whitespace padding and lower-cases the rest, so a padded or upper-case "title" satisfies the column check. |
| UploadView.PaddedTitleIsTitle | movies/views.py:154 | " Title " normalises to "title". |
| UploadView.UpperTitleIsTitle | movies/views.py:154 | "TITLE" normalises to "title". |
| UploadView.RequiredNamesSuffice | movies/views.py:160-161 | Headers holding "title", "year" and "rating" leave nothing missing. |
| FileProcessor.ValidateFile | movies/file_processor.py:17-21 | `validate_file` passes exactly for a supported case-sensitive suffix and a size of at most 10 MiB. An unsupported suffix is reported before the size. |
| FileProcessor.StripColumns | movies/file_processor.py:37 | `df.columns.str.strip()` strips each header in place and keeps the rows. |
| FileProcessor.Reader | movies/file_processor.py:29-34 | ".csv" uses the CSV reader and ".xls"/".xlsx" use the Excel reader. Any other name raises before any reader runs. |
| FileProcessor.ProcessFile | movies/file_processor.py:28-47 | `process_file` succeeds exactly when the name is supported and its reader parses, and it returns that table with stripped headers. EmptyDataError maps to the empty-file error, ParserError to the malformed-file error, and anything else to the generic read error. |
| FileProcessor.ProcessFileAgreesWithValidateFile | movies/file_processor.py:17-47 | A name `validate_file` rejects as unsupported fails to read. For an accepted name, the outcome is the reader's. A table read keeps the reader's rows, with trimmed headers. |
| FileProcessor.FirstPresent | movies/file_processor.py:62-66 | The alias loop finds nothing exactly when no alias is a column. Otherwise it finds the first present alias in priority order. |
| FileProcessor.Resolve | movies/file_processor.py:62-68 | A field resolves to its first present alias, or fails naming the field. |
| FileProcessor.ValidateDataFrame | movies/file_processor.py:54-70 | The mapping succeeds exactly when each of title, year and rating has a present alias. Otherwise the first field without one, in that order, is reported. The mapping has exactly these three keys, each bound to an existing column. |
| FileProcessor.ValidateDataFrameChoosesFirstAlias | movies/file_processor.py:62-66 | Each field is bound to its first present alias. |
| FileProcessor.Lookup | movies/file_processor.py:85-87 | `row[column_mapping[field]]` succeeds exactly when the mapping has the field and the table has its column. Otherwise it raises KeyError. |
| FileProcessor.OptionalEntry | movies/file_processor.py:92-96 | The key is absent exactly when the column is absent. It holds None exactly for a missing value in a single column. A repeated column, or a value that does not convert, drops the row. |
| FileProcessor.RequiredEntries | movies/file_processor.py:84-89 | The three required entries succeed exactly when the mapping fits, the year and rating columns are not repeated, `int()` accepts the year cell and `float()` accepts the rating cell. The year is the cell's `int()` and the rating its `float()`, neither from a repeated column. The title of a single column is the stripped `str()` of its cell. |
| FileProcessor.ConvertRow | movies/file_processor.py:82-102 | A row converts exactly when its required entries do and neither optional entry drops it. A converted row's mapping fits. Its year and rating are the conversions of their cells, and a title from a single column is the stripped text of its cell. |
| FileProcessor.ConvertRowKeptExactlyWhen | movies/file_processor.py:84-102 | A row is kept exactly when the mapping fits, `int()` of the year and `float()` of the rating succeed on unrepeated columns, and each present revenue or runtime column is unrepeated and holds a missing value or a value that converts. |
| FileProcessor.ConvertRowOnlyDrops | movies/file_processor.py:84-102 | With a fitting mapping, a row is only ever dropped. It never raises KeyError. |
| FileProcessor.ConvertRowOptionalKeys | movies/file_processor.py:92-96 | The revenue and runtime keys exist exactly when their columns do, and hold None exactly for a missing value. Otherwise they hold the converted cell. |
| FileProcessor.RepeatedOptionalColumnDrops | movies/file_processor.py:92-102 | A repeated revenue or runtime column drops every row. |
| FileProcessor.RepeatedRequiredColumnDrops | movies/file_processor.py:86-102 | With a fitting mapping, a repeated year or rating column drops every row. |
| FileProcessor.FirstKeyError | movies/file_processor.py:82-102 | There is no KeyError exactly when no attempt raised one. |
| FileProcessor.ConvertToMoviesData | movies/file_processor.py:73-104 | The result has no more dictionaries than rows. Without a mapping, a failed `validate_dataframe` is the call's error. |
| FileProcessor.FittingMappingNeverFails | movies/file_processor.py:82-104 | With a fitting mapping, the conversion never fails. |
| FileProcessor.ResolvedMappingNeverFails | movies/file_processor.py:77-78 | Without a mapping, the conversion fails exactly when `validate_dataframe` does. |
| FileProcessor.ConvertKeepsRowOrder | movies/file_processor.py:82-104 | The k-th dictionary belongs to the k-th converting row. Positions increase, and no converting row is left out. |
| FileProcessor.CheckRecord | movies/file_processor.py:117-124 | A record that passes comes back unchanged. |
| FileProcessor.CheckRecordReasons | movies/file_processor.py:117-124 | A record passes exactly when its stripped title is non-empty, its year lies in 1900..2100 and its rating is NaN or in 0..10. Otherwise the first failing check names the reason. |
| FileProcessor.CreateMovieObjects | movies/file_processor.py:107-132 | Every dictionary is either kept or reported. |
| FileProcessor.CreateMovieObjectsErrorsSound | movies/file_processor.py:114-130 | Every reported (index + 2, reason) names a failing dictionary and its reason. |
| FileProcessor.CreateMovieObjectsErrorsComplete | movies/file_processor.py:114-130 | Every failing dictionary is reported. |
| FileProcessor.CreateMovieObjectsErrorsOrdered | movies/file_processor.py:114-130 | The reports come in input order. |
| FileProcessor.CreateMovieObjectsKept | movies/file_processor.py:126 | Every kept dictionary passes the three checks. |
| FileProcessor.MissingRatingIsAccepted | movies/file_processor.py:123 | A NaN rating passes the range check, because comparisons with NaN are false. |
| FileProcessor.MissingTitleBecomesNan | movies/file_processor.py:85 | A missing title cell becomes the text "nan", which passes the blank-title check. |
| UploadUtils.MissingNames | movies/utils.py:18 | The missing list holds exactly the required names that are not columns. |
| UploadUtils.MissingNamesKeepOrder | movies/utils.py:18 | The missing names keep their declared order. |
| UploadUtils.HandleUploadedFile | movies/utils.py:7-25 | An unsupported suffix raises. A result is the table of the reader the case-sensitive suffix selects, and holds every required name. A missing-column error lists the missing names in order and is never empty. |
| UploadUtils.HandleUploadedFileAccepts | movies/utils.py:16-21 | For a supported name and a parsed table, the call succeeds exactly when all three names are columns, and it returns the table as read. |
| UploadUtils.ReaderFailureIsReraised | movies/utils.py:23-25 | A reader exception reaches the caller unchanged. |
| UploadUtils.MissingNamesInOrder | movies/utils.py:16-19 | With headers "Title" and "rating", the report is ["title", "year"]. |
| Copies.PlainHeaderSurvives | movies/views.py:154 | A trimmed, lower-case header survives the view's normalisation. |
| Copies.UtilsAcceptedPassesView | movies/utils.py:16-19 | A table `handle_uploaded_file` accepts also passes the view's column check. |
| Copies.PaddedHeaderPassesView | movies/views.py:154-161 | The header " Title " satisfies the view's column check. |
| Copies.PaddedHeaderFailsUtils | movies/utils.py:16-19 | `handle_uploaded_file` reports "title" missing for the header " Title ". |
| Copies.PaddedHeaderFailsFileProcessor | movies/file_processor.py:37-68 | `FileProcessor` strips " Title " to "Title" but does not lower-case it, so the title field is reported missing. |
| Copies.UpperCaseSuffixDividesCopies | movies/file_processor.py:17 | "MOVIES.CSV" passes the form's extension check. It fails the case-sensitive suffix tests of `validate_file` and `handle_uploaded_file`. |
| Copies.SizeLimitsDiffer | movies/file_processor.py:20 | A supported file between 10 and 15 MiB fails `validate_file` but is not too large for the form. |
| Copies.EarlyYearsDivideCopies | movies/file_processor.py:120 | A year in 1888..1899 passes the view's checks. The record the view builds from it has no year violation under the model's field validators, but `create_movie_objects` rejects the year. |

## Left out

- I/O is not modelled: the temporary file and its name from the clock, deleting it, logging,
  messages, rendering and the redirect. Each outside outcome is a parameter instead.
- The other views of movies/views.py (the result pages) are not part of this model.
  Neither are the Django framework internals beyond the checks named above.
- Concurrency is not modelled. A run is one sequential step over the stored movies.
- A database failure is one flag for the whole insert. With it the transaction rolls back and
  nothing is stored. Batching into groups of 50 does not change the outcome and is left out.
- `updated_at` (auto_now) is not modelled, and neither is the ordering and indexing in Meta.
- `Movies.Save` models `save` of a new record only. Updating an existing record, where
  `validate_unique` excludes the record itself, is not modelled.
- `Movies.FullClean`, `MovieStore.InsertOrSkip` and `UploadView.ImportTable` compare the
  (title, year) key with exact string equality. The configured MySQL backend uses utf8mb4,
  and its default collation compares titles case-insensitively and accent-insensitively, so
  "Inception" and "INCEPTION" collide in the database but not in the model.
- `UploadView.ImportTable` stores each kept record as the view built it. The view never
  range-checks runtime, votes or metascore, so a row with votes -5 or runtime 5000000000 is
  kept. These are `PositiveIntegerField`s, which are unsigned columns on the configured MySQL
  backend. `bulk_create(ignore_conflicts=True)` issues `INSERT IGNORE` there, which turns an
  out-of-range value into a warning and stores it clipped to 0 or 4294967295. The model
  stores the unclipped value.
- `PyText.ParseInt` and `PyText.ParseFloat` accept less than Python's `int()` and
  `float()`. Digit-group underscores ("1_000") are not accepted, and only ASCII and the two
  Arabic-Indic digit sets count as digits. `ParseFloat` also rejects exponents ("1e1"),
  "inf", "infinity" and "nan". Such text is treated as unconvertible, which gives the wrong
  row error for it.
- `PyText.ParseFloat` models Python floats as exact reals, with no rounding to the nearest
  double. Python rounds the result of every `float()` and every product. Two inputs show the
  difference. The rating text "10.0000000000000001" gives exactly 10.0 in Python, so the
  source keeps the row, but the model gives 10 + 10^-16, so `UploadView.Validate` reports
  the rating as out of range and `FileProcessor.CheckRecord` returns InvalidRating. The text
  "9007199254740993" gives 9007199254740992.0 under Python's `float()`, while `int()` gives
  9007199254740993.
- `Cells.PyFloat`: the parsed value is the exact decimal, not the nearest double; see the
  `PyText.ParseFloat` line.
- `Cells.CoerceIntegerText`: the `float()` half holds in Python only for integers of
  magnitude at most 2^53; see the `PyText.ParseFloat` line.
- `PyText.ParseFloatExtendsParseInt`: holds in Python only for integers of magnitude at most
  2^53; see the `PyText.ParseFloat` line.
- `UploadView.RealOr`: the `float()` value is exact, with no double rounding; see the
  `PyText.ParseFloat` line.
- `UploadView.RealEntry`: the `float()` value is exact, with no double rounding; see the
  `PyText.ParseFloat` line.
- `Movies.RatingPercentage`: `rating * 10` is the exact product. Python rounds it to the
  nearest double.
- `FileProcessor.ProcessFile`: header labels are text only. `read_excel` gives a header cell
  holding a number or a date a non-string label. `df.columns.str.strip()` turns such a label
  into NaN, and raises AttributeError when no label is a string. So for a workbook whose
  header row is 1, 2, 3, the source's `process_file` raises the generic read error, while
  the model succeeds.
- `UploadView.ReadTable`: header labels are text only, as on the `FileProcessor.ProcessFile`
  line. For a workbook whose header row is 1, 2, 3, the source reports a read error, while
  the model reads the table and `ImportTable` then reports the missing columns.
- `PyText.Lower` maps only the ASCII letters. Python's `str.lower` also maps non-ASCII
  capitals.
- Float formatting is not modelled. A float cell carries the text `str()` gives for it.
  NaN is the only special float. dtype upcasting by `iterrows` is not modelled: cells keep
  the type the reader gave them.
- The readers' outputs are arbitrary tables. pandas itself renames exactly repeated header
  names ("x", "x.1"), so in the source, repeats arise only after header normalisation:
  the view's strip and lower-casing (`UploadView.TitleHeadersCollide`), or FileProcessor's
  strip, which makes " revenue" and "revenue" collide
  (`FileProcessor.RepeatedOptionalColumnDrops`).
- `FileProcessor.ConvertRow`: when the title column is repeated, the title is `str()` of a
  Series. The model states nothing about that title's text, only that the row converts as
  the year and rating allow.
- Decoding the CSV head is an input (`CsvHead`). The bytes and the UTF-8 codec are not
  modelled.
- `UploadForm.IsValid` covers only the file field. The form has no other fields.

=== FILE: cells.dfy ===
/** The tabular values pandas hands to the ingestion code: cells, tables, the outcome of a
    reader, and the `str()` / `int()` / `float()` coercions applied to a cell. */
module Cells {
  import opened Results
  import opened PyText

  /** One cell of a parsed table. `Absent` stands for a missing value: NaN in the table, or
      the None that `row.get` returns for a column that does not exist. `Num` carries,
      beside the value, the text Python's `str()` gives for that float (for instance
      "1917.0"), since the model does not reproduce float formatting. */
  datatype Cell = Absent | Text(text: string) | Int(whole: int) | Num(num: real, shown: string)

  /** A parsed table: the header names in order and, per row, the cells in column order. */
  datatype Table = Table(columns: seq<string>, rows: seq<seq<Cell>>)

  /** What a pandas reader produced: a table, or the kind of exception it raised. */
  datatype Parse = Parsed(table: Table) | EmptyDataError | ParserError | OtherError

  /** A Python float as the coercion `float()` returns it: a value or NaN. */
  datatype Float = Finite(value: real) | NaN

  /** `pd.notna`. */
  predicate NotNA(c: Cell) {
    !c.Absent?
  }

  /** `df.empty`: no rows or no columns. */
  predicate IsEmpty(t: Table) {
    |t.rows| == 0 || |t.columns| == 0
  }

  /** `row[name]`: the cell under the first column called `name`, or None (a `KeyError`)
      when there is no such column. A row shorter than the header reads as missing values. */
  function Get(columns: seq<string>, row: seq<Cell>, name: string): (r: Option<Cell>)
    decreases |columns|
  {
    if |columns| == 0 then None
    else if columns[0] == name then Some(if |row| > 0 then row[0] else Absent)
    else Get(columns[1..], if |row| > 0 then row[1..] else [], name)
  }

  /** The header holds `name` more than once. pandas then answers `row[name]` with a Series
      of all those cells rather than with one cell; `Get` reads the first of them. */
  predicate Repeated(columns: seq<string>, name: string) {
    exists i, j :: 0 <= i < j < |columns| && columns[i] == name && columns[j] == name
  }

  /** A repeated name is among the columns. */
  lemma RepeatedIsPresent(columns: seq<string>, name: string)
    requires Repeated(columns, name)
    ensures name in columns
  {
    var i, j :| 0 <= i < j < |columns| && columns[i] == name && columns[j] == name;
  }

  /** `row.get(name)`: as `Get`, with a missing column reading as a missing value. */
  function Value(columns: seq<string>, row: seq<Cell>, name: string): (c: Cell) {
    match Get(columns, row, name)
    case None => Absent
    case Some(c) => c
  }

  /** `Get` finds a column exactly when the header has that name. */
  lemma {:induction false} GetFindsColumn(columns: seq<string>, row: seq<Cell>, name: string)
    ensures Get(columns, row, name).None? <==> name !in columns
    decreases |columns|
  {
    if |columns| > 0 && columns[0] != name {
      GetFindsColumn(columns[1..], if |row| > 0 then row[1..] else [], name);
      assert columns == [columns[0]] + columns[1..];
    }
  }

  /** `Get` reads the cell under the first column with the name. */
  lemma {:induction false} GetFirstColumn(columns: seq<string>, row: seq<Cell>, name: string, i: nat)
    requires i < |columns| && columns[i] == name && name !in columns[..i]
    ensures Get(columns, row, name) == Some(if i < |row| then row[i] else Absent)
    decreases |columns|
  {
    if i > 0 {
      assert columns[0] in columns[..i];
      var rest := if |row| > 0 then row[1..] else [];
      assert columns[1..][..i - 1] == columns[..i][1..];
      GetFirstColumn(columns[1..], rest, name, i - 1);
    }
  }

  /** `str(value)`; a missing value prints as "nan". */
  function PyStr(c: Cell): string {
    match c
    case Absent => "nan"
    case Text(s) => s
    case Int(i) => IntToString(i)
    case Num(_, shown) => shown
  }

  /** `int(x)` for a float: rounds toward zero. */
  function Trunc(x: real): (r: int)
    ensures 0.0 <= x ==> r as real <= x < (r + 1) as real
    ensures x < 0.0 ==> (r - 1) as real < x <= r as real
  {
    if x >= 0.0 then x.Floor else -((-x).Floor)
  }

  /** `int(value)` for a present cell; None where Python raises. */
  function ToInt(c: Cell): Option<int> {
    match c
    case Absent => None
    case Text(s) => ParseInt(s)
    case Int(i) => Some(i)
    case Num(x, _) => Some(Trunc(x))
  }

  /** `float(value)` for a present cell; None where Python raises. */
  function ToReal(c: Cell): Option<real> {
    match c
    case Absent => None
    case Text(s) => ParseFloat(s)
    case Int(i) => Some(i as real)
    case Num(x, _) => Some(x)
  }

  /** `float(value)` for any cell: a missing value becomes NaN rather than an error. */
  function PyFloat(c: Cell): (r: Option<Float>)
    ensures c.Absent? ==> r == Some(NaN)
    ensures NotNA(c) ==> (r.None? <==> ToReal(c).None?)
    ensures NotNA(c) && r.Some? ==> r.value == Finite(ToReal(c).value)
  {
    if c.Absent? then Some(NaN)
    else
      match ToReal(c)
      case Some(x) => Some(Finite(x))
      case None => None
  }

  /** A column renamed by `f`, everything else kept. */
  function RenameColumns(t: Table, f: string -> string): (r: Table)
    ensures r.rows == t.rows && |r.columns| == |t.columns|
    ensures forall i :: 0 <= i < |t.columns| ==> r.columns[i] == f(t.columns[i])
  {
    Table(seq(|t.columns|, i requires 0 <= i < |t.columns| => f(t.columns[i])), t.rows)
  }

  /** Every integer written out as text converts back with `int()`, and with `float()` over
      exact reals (with double rounding, only up to magnitude 2^53). */
  lemma CoerceIntegerText(i: int)
    ensures ToInt(Text(IntToString(i))) == Some(i)
    ensures ToReal(Text(IntToString(i))) == Some(i as real)
  {
    ParseIntRoundTrip(i);
    ParseFloatExtendsParseInt(IntToString(i), i);
  }
}

=== FILE: copies.dfy ===
/** How the copies of the ingestion logic disagree: the upload view, `FileProcessor` and
    `handle_uploaded_file` each accept different headers, names, sizes and years. */
module Copies {
  import opened Results
  import opened PyText
  import opened Cells
  import opened Movies
  import UploadForm
  import UploadView
  import FileProcessor
  import UploadUtils

  /** A trimmed, lower-case header survives the view's normalisation unchanged. */
  lemma PlainHeaderSurvives(t: Table, n: string)
    requires n in t.columns && Trimmed(n) && Lower(n) == n
    ensures n in UploadView.NormalizeColumns(t).columns
  {
    var i :| 0 <= i < |t.columns| && t.columns[i] == n;
    StripOfTrimmed(n);
    assert UploadView.NormalizeColumns(t).columns[i] == n;
  }

  /** The three required names are trimmed and lower-case already. */
  lemma PlainNames()
    ensures Trimmed("title") && Lower("title") == "title"
    ensures Trimmed("year") && Lower("year") == "year"
    ensures Trimmed("rating") && Lower("rating") == "rating"
  {
  }

  /** A table that `handle_uploaded_file` accepts also passes the view's column check. */
  lemma UtilsAcceptedPassesView(t: Table)
    requires forall n :: n in UploadUtils.RequiredNames ==> n in t.columns
    ensures UploadView.MissingColumns(UploadView.NormalizeColumns(t).columns) == {}
  {
    assert "title" in UploadUtils.RequiredNames && "year" in UploadUtils.RequiredNames && "rating" in UploadUtils.RequiredNames;
    PlainNames();
    PlainHeaderSurvives(t, "title");
    PlainHeaderSurvives(t, "year");
    PlainHeaderSurvives(t, "rating");
    UploadView.RequiredNamesSuffice(UploadView.NormalizeColumns(t).columns);
  }

  /** The header " Title " satisfies the view's column check. */
  lemma PaddedHeaderPassesView(rows: seq<seq<Cell>>)
    ensures UploadView.MissingColumns(UploadView.NormalizeColumns(Table([" Title ", "year", "rating"], rows)).columns) == {}
  {
    var t := Table([" Title ", "year", "rating"], rows);
    var cs := UploadView.NormalizeColumns(t).columns;
    UploadView.PaddedTitleIsTitle();
    assert cs[0] == "title";
    PlainNames();
    PlainHeaderSurvives(t, "year");
    PlainHeaderSurvives(t, "rating");
    UploadView.RequiredNamesSuffice(cs);
  }

  /** `handle_uploaded_file` reports "title" missing for the header " Title ". */
  lemma PaddedHeaderFailsUtils(rows: seq<seq<Cell>>)
    ensures UploadUtils.HandleUploadedFile("m.csv", Parsed(Table([" Title ", "year", "rating"], rows)), OtherError)
      == Failure(UploadUtils.ColumnsMissing(["title"]))
  {
    assert EndsWith("m.csv", ".csv");
    assert UploadUtils.MissingNames(UploadUtils.RequiredNames, [" Title ", "year", "rating"]) == ["title"];
  }

  /** Stripping a three-column header strips each name in place. */
  lemma StripThreeColumns(t: Table)
    requires |t.columns| == 3
    ensures |FileProcessor.StripColumns(t).columns| == 3
    ensures FileProcessor.StripColumns(t).columns[0] == Strip(t.columns[0])
    ensures FileProcessor.StripColumns(t).columns[1] == Strip(t.columns[1])
    ensures FileProcessor.StripColumns(t).columns[2] == Strip(t.columns[2])
  {
  }

  /** " Title " strips to "Title"; the two plain names strip to themselves. */
  lemma PaddedHeaderNamesStrip()
    ensures Strip(" Title ") == "Title" && Strip("year") == "year" && Strip("rating") == "rating"
  {
    StripPadded(" ", "Title", " ");
    assert " " + "Title" + " " == " Title ";
    StripOfTrimmed("year");
    StripOfTrimmed("rating");
  }

  /** No title alias is spelled "Title", "year" or "rating". */
  lemma NoTitleAliasAmong(fs: seq<string>)
    requires |fs| == 3 && fs[0] == "Title" && fs[1] == "year" && fs[2] == "rating"
    ensures !FileProcessor.AnyPresent(fs, FileProcessor.TitleAliases)
  {
    assert fs == ["Title", "year", "rating"];
    forall k | 0 <= k < |FileProcessor.TitleAliases|
      ensures FileProcessor.TitleAliases[k] !in fs
    {
      var a := FileProcessor.TitleAliases[k];
      assert a[0] != 'T' && a[0] != 'y' && a[0] != 'r';
    }
  }

  /** `FileProcessor` strips " Title " to "Title" but does not lower-case it, so no title
      alias matches. */
  lemma PaddedHeaderFailsFileProcessor(t: Table)
    requires t.columns == [" Title ", "year", "rating"]
    ensures FileProcessor.ValidateDataFrame(FileProcessor.StripColumns(t).columns) == Failure(FileProcessor.MissingField("title"))
  {
    StripThreeColumns(t);
    PaddedHeaderNamesStrip();
    NoTitleAliasAmong(FileProcessor.StripColumns(t).columns);
  }

  /** "MOVIES.CSV" passes the form's extension check but fails the case-sensitive suffix
      test of `validate_file` and of `handle_uploaded_file`. */
  lemma UpperCaseSuffixDividesCopies(size: nat)
    ensures UploadForm.Extension("MOVIES.CSV") in UploadForm.AllowedExtensions
    ensures FileProcessor.ValidateFile("MOVIES.CSV", size) == Failure(FileProcessor.UnsupportedType)
    ensures UploadUtils.HandleUploadedFile("MOVIES.CSV", OtherError, OtherError) == Failure(UploadUtils.Unsupported)
  {
    SplitExtOfName("MOVIES", ".CSV");
    assert "MOVIES" + ".CSV" == "MOVIES.CSV";
    assert Lower(".CSV") == ".csv";
    assert !EndsWith("MOVIES.CSV", ".csv");
    assert !EndsWith("MOVIES.CSV", ".xls");
    assert !EndsWith("MOVIES.CSV", ".xlsx");
  }

  /** A file between 10 and 15 MiB passes the form's size check but not `validate_file`. */
  lemma SizeLimitsDiffer(name: string, size: nat)
    requires FileProcessor.SupportedName(name)
    requires FileProcessor.MaxFileSize < size <= UploadForm.MaxUploadSize
    ensures FileProcessor.ValidateFile(name, size) == Failure(FileProcessor.TooLarge)
    ensures UploadForm.CleanFile(Some(UploadForm.UploadedFile(name, size, UploadForm.MagicMissing, UploadForm.Undecodable, UploadForm.EngineMissing))) != Failure(UploadForm.FileTooLarge)
  {
  }

  /** A year between 1888 and 1899 is accepted by the view's row checks and the model's
      validators, and rejected by `create_movie_objects`. */
  lemma EarlyYearsDivideCopies(d: UploadView.RowData, data: FileProcessor.MovieData)
    requires UploadView.ValidRow(d) && d.year.value < FileProcessor.MinYear
    requires data.year == d.year.value
    ensures var m := UploadView.MovieOf(d);
      m.year == d.year.value && YearTooSmall !in FieldViolations(m) && YearTooLarge !in FieldViolations(m)
    ensures FileProcessor.CheckRecord(data).Failure?
  {
  }
}

=== FILE: file_processor.dfy ===
/** The `FileProcessor` helpers of movies/file_processor.py: the name-and-size check, the
    reader dispatch with header trimming, alias resolution of the three required fields,
    the conversion of rows into keyword dictionaries, and the checks that turn dictionaries
    into unsaved movies. */
module FileProcessor {
  import opened Results
  import opened PyText
  import opened Cells
  import opened Partitions

  const MaxFileSize: nat := 10 * 1024 * 1024
  const MinYear: int := 1900
  const MaxYear: int := 2100
  const MaxRating: real := 10.0
  /** The first dictionary is reported as row 2. */
  const FirstRecord: int := 2

  /** The aliases of each required field, in priority order. */
  const TitleAliases: seq<string> := ["title", "film", "movie", "اسم الفيلم"]
  const YearAliases: seq<string> := ["year", "release_year", "سنة", "سنة الإصدار"]
  const RatingAliases: seq<string> := ["rating", "score", "تقييم"]

  /** The exceptions that leave the helpers: the `ValueError`s they raise, and a `KeyError`
      from a mapping that names a column the table does not have. */
  datatype FileError =
    | UnsupportedType | TooLarge | EmptyData | Malformed | ReadError
    | MissingField(field: string) | KeyNotFound(key: string)

  /** The suffix test `validate_file` and `process_file` share; it is case-sensitive. */
  predicate SupportedName(name: string) {
    EndsWith(name, ".csv") || EndsWith(name, ".xls") || EndsWith(name, ".xlsx")
  }

  /** `validate_file`: the suffix first, then the size. */
  function ValidateFile(name: string, size: nat): (r: Result<(), FileError>)
    ensures r.Success? <==> SupportedName(name) && size <= MaxFileSize
    ensures r == Failure(UnsupportedType) <==> !SupportedName(name)
    ensures r == Failure(TooLarge) <==> SupportedName(name) && size > MaxFileSize
  {
    if !SupportedName(name) then Failure(UnsupportedType)
    else if size > MaxFileSize then Failure(TooLarge)
    else Success(())
  }

  /** A table whose header names have been stripped (`df.columns.str.strip()`). */
  function StripColumns(t: Table): (r: Table)
    ensures r.rows == t.rows && |r.columns| == |t.columns|
    ensures forall i :: 0 <= i < |t.columns| ==> r.columns[i] == Strip(t.columns[i])
  {
    RenameColumns(t, Strip)
  }

  /** The reader `process_file` calls for a name: the CSV reader for ".csv", the Excel
      reader for ".xls" and ".xlsx". Any other name raises the "unsupported" error before
      a reader runs, which the generic handler turns into a read error. */
  function Reader(path: string, csv: Parse, excel: Parse): (read: Parse)
    ensures EndsWith(path, ".csv") ==> read == csv
    ensures !EndsWith(path, ".csv") && SupportedName(path) ==> read == excel
    ensures !SupportedName(path) ==> read == OtherError
  {
    if EndsWith(path, ".csv") then csv
    else if EndsWith(path, ".xls") || EndsWith(path, ".xlsx") then excel
    else OtherError
  }

  /** `process_file`: the reader's table with its headers stripped, or the error its
      exception maps to: `EmptyDataError` to the empty-file error, `ParserError` to the
      malformed-file error, anything else to the generic read error. */
  function ProcessFile(path: string, csv: Parse, excel: Parse): (r: Result<Table, FileError>)
    ensures r.Success? <==> SupportedName(path) && Reader(path, csv, excel).Parsed?
    ensures r.Success? ==> r.value == StripColumns(Reader(path, csv, excel).table)
    ensures r == Failure(EmptyData) <==> SupportedName(path) && Reader(path, csv, excel) == EmptyDataError
    ensures r == Failure(Malformed) <==> SupportedName(path) && Reader(path, csv, excel) == ParserError
    ensures r == Failure(ReadError) <==> !SupportedName(path) || Reader(path, csv, excel) == OtherError
    ensures r.Failure? ==> r.error in {EmptyData, Malformed, ReadError}
  {
    match Reader(path, csv, excel)
    case Parsed(t) => Success(StripColumns(t))
    case EmptyDataError => Failure(EmptyData)
    case ParserError => Failure(Malformed)
    case OtherError => Failure(ReadError)
  }

  /** `process_file` and `validate_file` share the suffix test: a name `validate_file`
      rejects as unsupported fails to read, and for a name it accepts the outcome is the
      reader's. A table that comes back has the reader's rows and trimmed header names. */
  lemma ProcessFileAgreesWithValidateFile(path: string, size: nat, csv: Parse, excel: Parse)
    ensures ValidateFile(path, size) == Failure(UnsupportedType) ==> ProcessFile(path, csv, excel) == Failure(ReadError)
    ensures ValidateFile(path, size).Success? ==>
      (ProcessFile(path, csv, excel).Success? <==> Reader(path, csv, excel).Parsed?)
    ensures ProcessFile(path, csv, excel).Success? ==>
      var t := ProcessFile(path, csv, excel).value;
      && t.rows == Reader(path, csv, excel).table.rows
      && forall i :: 0 <= i < |t.columns| ==> Trimmed(t.columns[i])
  {
  }

  // ---------------------------------------------------------------- aliases

  /** The first alias, in priority order, that is among the columns. */
  function FirstPresent(columns: seq<string>, aliases: seq<string>): (r: Option<string>)
    ensures r.None? <==> forall k :: 0 <= k < |aliases| ==> aliases[k] !in columns
    ensures r.Some? ==> exists k :: 0 <= k < |aliases| && aliases[k] == r.value && IsFirstPresent(columns, aliases, k)
    decreases |aliases|
  {
    if |aliases| == 0 then None
    else if aliases[0] in columns then
      assert IsFirstPresent(columns, aliases, 0);
      Some(aliases[0])
    else
      var r := FirstPresent(columns, aliases[1..]);
      if r.Some? then
        var k :| 0 <= k < |aliases[1..]| && aliases[1..][k] == r.value && IsFirstPresent(columns, aliases[1..], k);
        assert IsFirstPresent(columns, aliases, k + 1) by {
          forall j | 0 <= j < k + 1 ensures aliases[j] !in columns {
            if j > 0 { assert aliases[j] == aliases[1..][j - 1]; }
          }
        }
        r
      else
        assert forall k :: 1 <= k < |aliases| ==> aliases[k] == aliases[1..][k - 1];
        r
  }

  /** Alias `k` is present and no alias before it is. */
  predicate IsFirstPresent(columns: seq<string>, aliases: seq<string>, k: nat)
    requires k < |aliases|
  {
    aliases[k] in columns && forall j :: 0 <= j < k ==> aliases[j] !in columns
  }

  /** One pass of the alias loop: the field's first present alias, or the error naming it. */
  function Resolve(columns: seq<string>, field: string, aliases: seq<string>): (r: Result<string, FileError>)
    ensures r.Failure? ==> r.error == MissingField(field)
    ensures r.Success? <==> FirstPresent(columns, aliases).Some?
    ensures r.Success? ==> r.value == FirstPresent(columns, aliases).value
  {
    match FirstPresent(columns, aliases)
    case None => Failure(MissingField(field))
    case Some(name) => Success(name)
  }

  /** Some alias of the list is among the columns. */
  predicate AnyPresent(columns: seq<string>, aliases: seq<string>) {
    exists k :: 0 <= k < |aliases| && aliases[k] in columns
  }

  /** `validate_dataframe`: the fields title, year and rating, in that order, each mapped to
      its first present alias; the first field with none fails the call. */
  function ValidateDataFrame(columns: seq<string>): (r: Result<map<string, string>, FileError>)
    ensures r.Success? <==>
      AnyPresent(columns, TitleAliases) && AnyPresent(columns, YearAliases) && AnyPresent(columns, RatingAliases)
    ensures r == Failure(MissingField("title")) <==> !AnyPresent(columns, TitleAliases)
    ensures r == Failure(MissingField("year")) <==> AnyPresent(columns, TitleAliases) && !AnyPresent(columns, YearAliases)
    ensures r == Failure(MissingField("rating")) <==>
      AnyPresent(columns, TitleAliases) && AnyPresent(columns, YearAliases) && !AnyPresent(columns, RatingAliases)
    ensures r.Success? ==> r.value.Keys == {"title", "year", "rating"}
    ensures r.Success? ==> forall f :: f in r.value ==> r.value[f] in columns
  {
    var title :- Resolve(columns, "title", TitleAliases);
    var year :- Resolve(columns, "year", YearAliases);
    var rating :- Resolve(columns, "rating", RatingAliases);
    Success(map["title" := title, "year" := year, "rating" := rating])
  }

  /** Each field of a successful mapping is bound to its first present alias. */
  lemma ValidateDataFrameChoosesFirstAlias(columns: seq<string>)
    requires ValidateDataFrame(columns).Success?
    ensures var m := ValidateDataFrame(columns).value;
      && (exists k :: 0 <= k < |TitleAliases| && m["title"] == TitleAliases[k] && IsFirstPresent(columns, TitleAliases, k))
      && (exists k :: 0 <= k < |YearAliases| && m["year"] == YearAliases[k] && IsFirstPresent(columns, YearAliases, k))
      && (exists k :: 0 <= k < |RatingAliases| && m["rating"] == RatingAliases[k] && IsFirstPresent(columns, RatingAliases, k))
  {
  }

  // ---------------------------------------------------------------- rows

  /** The keyword dictionary built from one row. `revenue` and `runtime` are None when the
      key is absent and Some(None) when the key holds None. */
  datatype MovieData = MovieData(
    title: string, year: int, rating: Float,
    revenue: Option<Option<real>>, runtime: Option<Option<int>>)

  /** Why a row produced no dictionary: a conversion raised (`ValueError`, caught, the row
      is dropped) or a lookup raised (`KeyError`, not caught). */
  datatype Skip = Dropped | KeyError(key: string)

  /** `row[column_mapping[field]]`. */
  function Lookup(columns: seq<string>, row: seq<Cell>, mapping: map<string, string>, field: string): (r: Result<Cell, Skip>)
    ensures r.Success? <==> field in mapping && mapping[field] in columns
    ensures r.Success? ==> r.value == Value(columns, row, mapping[field])
    ensures r.Failure? ==> r.error.KeyError?
  {
    if field !in mapping then Failure(KeyError(field))
    else
      GetFindsColumn(columns, row, mapping[field]);
      match Get(columns, row, mapping[field])
      case None => Failure(KeyError(mapping[field]))
      case Some(c) => Success(c)
  }

  /** An optional numeric entry: absent when the column is absent, None for a missing value,
      otherwise the conversion, which may drop the row. A repeated column also drops it:
      `pd.notna` of a Series cannot serve as a condition. */
  function OptionalEntry<T>(columns: seq<string>, row: seq<Cell>, name: string, convert: Cell -> Option<T>): (r: Result<Option<Option<T>>, Skip>)
    ensures r.Failure? ==> r.error == Dropped
    ensures r.Success? && r.value.None? <==> name !in columns
    ensures r.Success? && r.value == Some(None) <==>
      name in columns && !Repeated(columns, name) && !NotNA(Value(columns, row, name))
    ensures r.Failure? <==>
      name in columns && (Repeated(columns, name) || (NotNA(Value(columns, row, name)) && convert(Value(columns, row, name)).None?))
  {
    if name !in columns then Success(None)
    else if Repeated(columns, name) then Failure(Dropped)
    else
      var c := Value(columns, row, name);
      if !NotNA(c) then Success(Some(None))
      else match convert(c)
        case None => Failure(Dropped)
        case Some(x) => Success(Some(Some(x)))
  }

  /** The three required entries: the stripped title text, `int()` of the year cell and
      `float()` of the rating cell. A conversion that raises drops the row, and `int()` or
      `float()` of a repeated column (a Series) raises. */
  function RequiredEntries(columns: seq<string>, row: seq<Cell>, mapping: map<string, string>): (r: Result<(string, int, Float), Skip>)
    ensures r.Success? <==> RequiredConvertible(columns, row, mapping)
    ensures r.Success? ==> MappingFits(columns, mapping)
    ensures r.Success? ==>
      && ToInt(Value(columns, row, mapping["year"])) == Some(r.value.1) && !Repeated(columns, mapping["year"])
      && PyFloat(Value(columns, row, mapping["rating"])) == Some(r.value.2) && !Repeated(columns, mapping["rating"])
    ensures r.Success? && !Repeated(columns, mapping["title"]) ==> r.value.0 == Strip(PyStr(Value(columns, row, mapping["title"])))
  {
    var titleCell :- Lookup(columns, row, mapping, "title");
    var yearCell :- Lookup(columns, row, mapping, "year");
    var year :- if Repeated(columns, mapping["year"]) || ToInt(yearCell).None? then Failure(Dropped) else Success(ToInt(yearCell).value);
    var ratingCell :- Lookup(columns, row, mapping, "rating");
    var rating :- if Repeated(columns, mapping["rating"]) || PyFloat(ratingCell).None? then Failure(Dropped) else Success(PyFloat(ratingCell).value);
    Success((Strip(PyStr(titleCell)), year, rating))
  }

  /** The three columns exist, the year and rating columns are not repeated, `int()`
      accepts the year cell and `float()` accepts the rating cell. */
  predicate RequiredConvertible(columns: seq<string>, row: seq<Cell>, mapping: map<string, string>) {
    && MappingFits(columns, mapping)
    && !Repeated(columns, mapping["year"]) && ToInt(Value(columns, row, mapping["year"])).Some?
    && !Repeated(columns, mapping["rating"]) && PyFloat(Value(columns, row, mapping["rating"])).Some?
  }

  /** The body of the row loop: the dictionary, or why there is none. */
  function ConvertRow(columns: seq<string>, row: seq<Cell>, mapping: map<string, string>): (r: Result<MovieData, Skip>)
    ensures r.Success? <==>
      && RequiredConvertible(columns, row, mapping)
      && OptionalEntry(columns, row, "revenue", ToReal).Success?
      && OptionalEntry(columns, row, "runtime", ToInt).Success?
    ensures r.Success? ==> MappingFits(columns, mapping)
    ensures r.Success? ==>
      && ToInt(Value(columns, row, mapping["year"])) == Some(r.value.year)
      && PyFloat(Value(columns, row, mapping["rating"])) == Some(r.value.rating)
    ensures r.Success? && !Repeated(columns, mapping["title"]) ==> r.value.title == Strip(PyStr(Value(columns, row, mapping["title"])))
  {
    var (title, year, rating) :- RequiredEntries(columns, row, mapping);
    var revenue :- OptionalEntry(columns, row, "revenue", ToReal);
    var runtime :- OptionalEntry(columns, row, "runtime", ToInt);
    Success(MovieData(title, year, rating, revenue, runtime))
  }

  /** The mapping names three existing columns. */
  predicate MappingFits(columns: seq<string>, mapping: map<string, string>) {
    && "title" in mapping && mapping["title"] in columns
    && "year" in mapping && mapping["year"] in columns
    && "rating" in mapping && mapping["rating"] in columns
  }

  /** An optional column lets the row through: it is absent, or it is not repeated and
      holds a missing value or a value `convert` accepts. */
  predicate OptionalConvertible<T>(columns: seq<string>, row: seq<Cell>, name: string, convert: Cell -> Option<T>) {
    name in columns ==>
      !Repeated(columns, name) && (NotNA(Value(columns, row, name)) ==> convert(Value(columns, row, name)).Some?)
  }

  /** A row is kept exactly when its year and rating convert and neither optional column
      stops it. */
  lemma ConvertRowKeptExactlyWhen(columns: seq<string>, row: seq<Cell>, mapping: map<string, string>)
    ensures ConvertRow(columns, row, mapping).Success? <==>
      && RequiredConvertible(columns, row, mapping)
      && OptionalConvertible(columns, row, "revenue", ToReal)
      && OptionalConvertible(columns, row, "runtime", ToInt)
  {
    assert OptionalEntry(columns, row, "revenue", ToReal).Success? <==> OptionalConvertible(columns, row, "revenue", ToReal);
    assert OptionalEntry(columns, row, "runtime", ToInt).Success? <==> OptionalConvertible(columns, row, "runtime", ToInt);
  }

  /** With a mapping that fits the table a row is dropped, never failed: every lookup
      finds its column. */
  lemma ConvertRowOnlyDrops(columns: seq<string>, row: seq<Cell>, mapping: map<string, string>)
    requires MappingFits(columns, mapping)
    ensures ConvertRow(columns, row, mapping).Failure? ==> ConvertRow(columns, row, mapping).error == Dropped
  {
  }

  /** The `revenue` and `runtime` keys are present exactly when their columns are, hold
      None exactly when the cell is a missing value, and otherwise hold the converted cell. */
  lemma ConvertRowOptionalKeys(columns: seq<string>, row: seq<Cell>, mapping: map<string, string>)
    requires ConvertRow(columns, row, mapping).Success?
    ensures var d := ConvertRow(columns, row, mapping).value;
      && (d.revenue.Some? <==> "revenue" in columns)
      && (d.runtime.Some? <==> "runtime" in columns)
      && (d.revenue == Some(None) <==> "revenue" in columns && !NotNA(Value(columns, row, "revenue")))
      && (d.runtime == Some(None) <==> "runtime" in columns && !NotNA(Value(columns, row, "runtime")))
      && (d.revenue.Some? && d.revenue.value.Some? ==> ToReal(Value(columns, row, "revenue")) == d.revenue.value)
      && (d.runtime.Some? && d.runtime.value.Some? ==> ToInt(Value(columns, row, "runtime")) == d.runtime.value)
  {
    var revenue := OptionalEntry(columns, row, "revenue", ToReal);
    var runtime := OptionalEntry(columns, row, "runtime", ToInt);
    assert revenue.Success? && runtime.Success?;
    assert ConvertRow(columns, row, mapping).value.revenue == revenue.value;
    assert ConvertRow(columns, row, mapping).value.runtime == runtime.value;
  }

  /** A repeated `revenue` or `runtime` column drops every row that gets that far. */
  lemma RepeatedOptionalColumnDrops(columns: seq<string>, row: seq<Cell>, mapping: map<string, string>)
    requires Repeated(columns, "revenue") || Repeated(columns, "runtime")
    ensures ConvertRow(columns, row, mapping).Failure?
    ensures RequiredEntries(columns, row, mapping).Success? ==> ConvertRow(columns, row, mapping).error == Dropped
  {
    if Repeated(columns, "revenue") {
      RepeatedIsPresent(columns, "revenue");
      assert OptionalEntry(columns, row, "revenue", ToReal).Failure?;
    } else {
      RepeatedIsPresent(columns, "runtime");
      assert OptionalEntry(columns, row, "runtime", ToInt).Failure?;
    }
  }

  /** With a fitting mapping, a repeated year or rating column drops every row: `int()`
      and `float()` of a Series raise. */
  lemma RepeatedRequiredColumnDrops(columns: seq<string>, row: seq<Cell>, mapping: map<string, string>)
    requires MappingFits(columns, mapping)
    requires Repeated(columns, mapping["year"]) || Repeated(columns, mapping["rating"])
    ensures ConvertRow(columns, row, mapping) == Failure(Dropped)
  {
    assert RequiredEntries(columns, row, mapping).Failure?;
    ConvertRowOnlyDrops(columns, row, mapping);
  }

  /** The attempt of every row, in order. */
  function Attempts(t: Table, mapping: map<string, string>): (rs: seq<Result<MovieData, Skip>>)
    ensures |rs| == |t.rows|
    decreases |t.rows|
  {
    if |t.rows| == 0 then []
    else [ConvertRow(t.columns, t.rows[0], mapping)] + Attempts(t.(rows := t.rows[1..]), mapping)
  }

  lemma {:induction false} AttemptAt(t: Table, mapping: map<string, string>, i: nat)
    requires i < |t.rows|
    ensures Attempts(t, mapping)[i] == ConvertRow(t.columns, t.rows[i], mapping)
    decreases |t.rows|
  {
    if i > 0 {
      AttemptAt(t.(rows := t.rows[1..]), mapping, i - 1);
    }
  }

  /** The key of the first attempt that raised a `KeyError`, if any. */
  function FirstKeyError(rs: seq<Result<MovieData, Skip>>): (k: Option<string>)
    ensures k.None? <==> forall i :: 0 <= i < |rs| ==> !(rs[i].Failure? && rs[i].error.KeyError?)
    decreases |rs|
  {
    if |rs| == 0 then None
    else if rs[0].Failure? && rs[0].error.KeyError? then Some(rs[0].error.key)
    else
      var k := FirstKeyError(rs[1..]);
      assert forall i :: 1 <= i < |rs| ==> rs[i] == rs[1..][i - 1];
      k
  }

  /** `convert_to_movies_data`: without a mapping it resolves one with `validate_dataframe`;
      rows whose conversion raises `ValueError` are dropped, a `KeyError` ends the call. */
  function ConvertToMoviesData(t: Table, mapping: Option<map<string, string>>): (r: Result<seq<MovieData>, FileError>)
    ensures r.Success? ==> |r.value| <= |t.rows|
    ensures mapping.None? && ValidateDataFrame(t.columns).Failure? ==> r == Failure(ValidateDataFrame(t.columns).error)
  {
    var m :- if mapping.Some? then Success(mapping.value) else ValidateDataFrame(t.columns);
    var rs := Attempts(t, m);
    match FirstKeyError(rs)
    case Some(key) => Failure(KeyNotFound(key))
    case None => Success(Kept(rs, 0))
  }

  /** With a mapping that fits the table no row raises a `KeyError`. */
  lemma FittingMappingNeverFails(t: Table, mapping: map<string, string>)
    requires MappingFits(t.columns, mapping)
    ensures ConvertToMoviesData(t, Some(mapping)).Success?
  {
    var rs := Attempts(t, mapping);
    forall i | 0 <= i < |rs| ensures !(rs[i].Failure? && rs[i].error.KeyError?) {
      AttemptAt(t, mapping, i);
      ConvertRowOnlyDrops(t.columns, t.rows[i], mapping);
    }
  }

  /** Without a mapping the conversion fails exactly when `validate_dataframe` does: the
      mapping it resolves always fits. */
  lemma ResolvedMappingNeverFails(t: Table)
    ensures ConvertToMoviesData(t, None).Success? <==> ValidateDataFrame(t.columns).Success?
  {
    if ValidateDataFrame(t.columns).Success? {
      var m := ValidateDataFrame(t.columns).value;
      FittingMappingNeverFails(t, m);
    }
  }

  /** The dictionaries are those of the rows that converted, in row order: the k-th
      dictionary belongs to the k-th converting row, and no converting row is left out. */
  lemma ConvertKeepsRowOrder(t: Table, mapping: map<string, string>)
    requires ConvertToMoviesData(t, Some(mapping)).Success?
    ensures var data := ConvertToMoviesData(t, Some(mapping)).value;
      var ix := SuccessPositions(Attempts(t, mapping), 0);
      && |ix| == |data|
      && (forall k :: 0 <= k < |ix| ==> 0 <= ix[k] < |t.rows| && ConvertRow(t.columns, t.rows[ix[k]], mapping) == Success(data[k]))
      && (forall j, k :: 0 <= j < k < |ix| ==> ix[j] < ix[k])
      && (forall i :: 0 <= i < |t.rows| && ConvertRow(t.columns, t.rows[i], mapping).Success? ==> i in ix)
  {
    var rs := Attempts(t, mapping);
    var data := ConvertToMoviesData(t, Some(mapping)).value;
    assert data == Kept(rs, 0);
    SplitKeepsOrder(rs, 0);
    SuccessPositionsOrdered(rs, 0);
    SuccessPositionsComplete(rs, 0);
    var ix := SuccessPositions(rs, 0);
    forall k | 0 <= k < |ix| ensures ConvertRow(t.columns, t.rows[ix[k]], mapping) == Success(data[k]) {
      AttemptAt(t, mapping, ix[k]);
    }
    forall i | 0 <= i < |t.rows| && ConvertRow(t.columns, t.rows[i], mapping).Success? ensures i in ix {
      AttemptAt(t, mapping, i);
    }
  }

  // ---------------------------------------------------------------- movie objects

  /** Why `create_movie_objects` set a dictionary aside. */
  datatype RecordError = BlankTitle | InvalidYear | InvalidRating

  /** The checks of `create_movie_objects`, in order (see `CheckRecordReasons`). */
  function CheckRecord(d: MovieData): (r: Result<MovieData, RecordError>)
    ensures r.Success? ==> r.value == d
  {
    if d.title == "" || |Strip(d.title)| == 0 then Failure(BlankTitle)
    else if d.year < MinYear || d.year > MaxYear then Failure(InvalidYear)
    else if d.rating.Finite? && (d.rating.value < 0.0 || d.rating.value > MaxRating) then Failure(InvalidRating)
    else Success(d)
  }

  /** A dictionary passes exactly when its stripped title is non-empty, its year lies in
      1900..2100 and its rating is NaN or in 0..10; otherwise the first failing check names
      the reason. Comparisons with NaN are false, so a NaN rating passes the range check. */
  lemma CheckRecordReasons(d: MovieData)
    ensures CheckRecord(d).Success? <==> Strip(d.title) != "" && MinYear <= d.year <= MaxYear
                                         && (d.rating.NaN? || 0.0 <= d.rating.value <= MaxRating)
    ensures CheckRecord(d) == Failure(BlankTitle) <==> Strip(d.title) == ""
    ensures CheckRecord(d) == Failure(InvalidYear) <==> Strip(d.title) != "" && !(MinYear <= d.year <= MaxYear)
    ensures CheckRecord(d) == Failure(InvalidRating) <==>
      Strip(d.title) != "" && MinYear <= d.year <= MaxYear && d.rating.Finite? && !(0.0 <= d.rating.value <= MaxRating)
  {
    var blank := d.title == "" || |Strip(d.title)| == 0;
    assert blank <==> Strip(d.title) == "";
    var yearBad := d.year < MinYear || d.year > MaxYear;
    var ratingBad := d.rating.Finite? && (d.rating.value < 0.0 || d.rating.value > MaxRating);
    if blank {
      assert CheckRecord(d) == Failure(BlankTitle);
    } else if yearBad {
      assert CheckRecord(d) == Failure(InvalidYear);
    } else if ratingBad {
      assert CheckRecord(d) == Failure(InvalidRating);
    } else {
      assert CheckRecord(d) == Success(d);
    }
  }

  /** The check of every dictionary, in order. */
  function Checks(data: seq<MovieData>): (rs: seq<Result<MovieData, RecordError>>)
    ensures |rs| == |data|
    decreases |data|
  {
    if |data| == 0 then [] else [CheckRecord(data[0])] + Checks(data[1..])
  }

  /** Entry `i` of `Checks` is the check of dictionary `i`. */
  lemma {:induction false} CheckAt(data: seq<MovieData>, i: nat)
    requires i < |data|
    ensures Checks(data)[i] == CheckRecord(data[i])
    decreases |data|
  {
    if i > 0 {
      CheckAt(data[1..], i - 1);
    }
  }

  /** `create_movie_objects`: the dictionaries to build movies from, and the
      `(index + 2, reason)` of every other one. */
  function CreateMovieObjects(data: seq<MovieData>): (p: (seq<MovieData>, seq<(int, RecordError)>))
    ensures |p.0| + |p.1| == |data|
  {
    Split(Checks(data), FirstRecord)
  }

  /** `SplitFailuresSound` for the checks of `n` dictionaries. */
  lemma RecordFailuresAt(rs: seq<Result<MovieData, RecordError>>, errs: seq<(int, RecordError)>, n: nat)
    requires |rs| == n && errs == Failures(rs, FirstRecord)
    ensures forall k :: 0 <= k < |errs| ==>
      FirstRecord <= errs[k].0 < FirstRecord + n && rs[errs[k].0 - FirstRecord] == Failure(errs[k].1)
  {
    SplitFailuresSound(rs, FirstRecord);
  }

  /** Entry `i` of `Checks` is the check of dictionary `i`, for every `i` at once. */
  lemma ChecksAt(data: seq<MovieData>, rs: seq<Result<MovieData, RecordError>>)
    requires rs == Checks(data)
    ensures forall i :: 0 <= i < |data| ==> rs[i] == CheckRecord(data[i])
  {
    forall i | 0 <= i < |data|
      ensures rs[i] == CheckRecord(data[i])
    {
      CheckAt(data, i);
    }
  }

  /** Every error names a failing dictionary by its index in `data` plus 2, with its reason. */
  lemma CreateMovieObjectsErrorsSound(data: seq<MovieData>)
    ensures forall k :: 0 <= k < |CreateMovieObjects(data).1| ==>
      var e := CreateMovieObjects(data).1[k];
      FirstRecord <= e.0 < FirstRecord + |data| && CheckRecord(data[e.0 - FirstRecord]) == Failure(e.1)
  {
    var rs := Checks(data);
    RecordFailuresAt(rs, CreateMovieObjects(data).1, |data|);
    ChecksAt(data, rs);
  }

  /** Every failing dictionary has its entry among the errors. */
  lemma CreateMovieObjectsErrorsComplete(data: seq<MovieData>)
    ensures forall i :: 0 <= i < |data| && CheckRecord(data[i]).Failure? ==>
      (i + FirstRecord, CheckRecord(data[i]).error) in CreateMovieObjects(data).1
  {
    var rs := Checks(data);
    var errs := CreateMovieObjects(data).1;
    assert errs == Failures(rs, FirstRecord);
    SplitFailuresComplete(rs, FirstRecord);
    forall i | 0 <= i < |data| && CheckRecord(data[i]).Failure?
      ensures (i + FirstRecord, CheckRecord(data[i]).error) in errs
    {
      CheckAt(data, i);
    }
  }

  /** The errors come in the order of the dictionaries. */
  lemma CreateMovieObjectsErrorsOrdered(data: seq<MovieData>)
    ensures forall j, k :: 0 <= j < k < |CreateMovieObjects(data).1| ==>
      CreateMovieObjects(data).1[j].0 < CreateMovieObjects(data).1[k].0
  {
    var rs := Checks(data);
    assert CreateMovieObjects(data).1 == Failures(rs, FirstRecord);
    SplitFailuresOrdered(rs, FirstRecord);
  }

  /** Every dictionary kept passes the three checks. */
  lemma CreateMovieObjectsKept(data: seq<MovieData>)
    ensures forall k :: 0 <= k < |CreateMovieObjects(data).0| ==>
      CheckRecord(CreateMovieObjects(data).0[k]).Success?
  {
    var rs := Checks(data);
    assert CreateMovieObjects(data).0 == Kept(rs, FirstRecord);
    SplitKeepsOrder(rs, FirstRecord);
    var ix := SuccessPositions(rs, FirstRecord);
    forall k | 0 <= k < |CreateMovieObjects(data).0| ensures CheckRecord(CreateMovieObjects(data).0[k]).Success? {
      var i := ix[k] - FirstRecord;
      CheckAt(data, i);
      assert rs[i] == Success(CreateMovieObjects(data).0[k]);
    }
  }

  /** A row whose rating cell is missing converts with a NaN rating, and that dictionary
      passes the rating check. */
  lemma MissingRatingIsAccepted(d: MovieData)
    requires Strip(d.title) != "" && MinYear <= d.year <= MaxYear && d.rating == NaN
    ensures CheckRecord(d) == Success(d)
  {
    assert d.title != "" && |Strip(d.title)| != 0;
    assert !(d.year < MinYear || d.year > MaxYear) && !d.rating.Finite?;
  }

  /** A missing title cell becomes the text "nan", which passes the blank-title check. */
  lemma MissingTitleBecomesNan(columns: seq<string>, row: seq<Cell>, mapping: map<string, string>)
    requires ConvertRow(columns, row, mapping).Success?
    requires !Repeated(columns, mapping["title"]) && !NotNA(Value(columns, row, mapping["title"]))
    ensures ConvertRow(columns, row, mapping).value.title == "nan"
    ensures Strip(ConvertRow(columns, row, mapping).value.title) != ""
  {
    var c := Value(columns, row, mapping["title"]);
    assert PyStr(c) == "nan";
    NanStripsToItself();
  }

  /** The text "nan" has no padding to strip. */
  lemma NanStripsToItself()
    ensures Strip("nan") == "nan"
  {
    assert Trimmed("nan");
    StripOfTrimmed("nan");
  }
}

=== FILE: forms.dfy ===
/** The upload form of movies/forms.py: Django's `FileField` checks and extension
    validator, followed by the form's own `clean_file` (size, extension, content sniffing,
    and a trial read of the file's first line or first row). */
module UploadForm {
  import opened Results
  import opened PyText

  const MaxUploadSize: nat := 15 * 1024 * 1024
  const AllowedExtensions: set<string> := {".xlsx", ".xls", ".csv"}
  const ValidatorExtensions: set<string> := {"xlsx", "xls", "csv"}
  const AllowedMimeTypes: set<string> := {
    "application/vnd.ms-excel",
    "application/vnd.openxmlformats-officedocument.spreadsheetml.sheet",
    "application/zip",
    "text/csv",
    "text/plain",
    "application/octet-stream"
  }

  /** What `python-magic` says about the first 1024 bytes. */
  datatype MimeSniff = MagicMissing | SniffFailed | Sniffed(mime: string)

  /** The first 1024 bytes decoded as UTF-8 (with an optional byte-order mark). */
  datatype CsvHead = Undecodable | Decoded(text: string)

  /** What reading the first row with pandas gives: pandas itself missing, the Excel
      engine missing, another failure, or a frame that is empty or not. */
  datatype ExcelProbe = PandasMissing | EngineMissing | ProbeFailed | FirstRow(empty: bool)

  /** An uploaded file, reduced to what the checks look at. */
  datatype UploadedFile = UploadedFile(name: string, size: nat, sniff: MimeSniff, csvHead: CsvHead, excelProbe: ExcelProbe)

  /** The error codes the form can report. The first three are `FileField`'s own. */
  datatype FormError =
    | Required | NoFileName | EmptyUpload
    | MissingFile | FileTooLarge | EmptyFile | InvalidExtension | InvalidMimeType
    | InvalidCsv | InvalidExcel | UnreadableExcel | EncodingError | UnreadableFile

  /** An exception in flight inside `clean_file`. */
  datatype Raised = Rejected(code: FormError) | UnicodeDecode | ImportFailure | OtherFailure

  /** How a guarded block ends: fall through, return the file early, or raise. */
  datatype Flow = Continue | Return | Raise(raised: Raised)

  /** The body of the MIME check. The zip exception for Excel names can never fire, because
      "application/zip" is already on the allowed list. */
  function MimeCheck(f: UploadedFile, ext: string): (r: Flow)
    ensures r != Return
    ensures r == Continue <==> f.sniff.Sniffed? && f.sniff.mime in AllowedMimeTypes
  {
    match f.sniff
    case MagicMissing => Raise(ImportFailure)
    case SniffFailed => Raise(OtherFailure)
    case Sniffed(mime) =>
      if mime !in AllowedMimeTypes then
        if ext in {".xlsx", ".xls"} && mime == "application/zip" then Return
        else Raise(Rejected(InvalidMimeType))
      else Continue
  }

  /** The MIME check with its handlers: a missing library and every other exception,
      the mismatch rejection included, are logged and ignored. */
  function MimeStage(f: UploadedFile, ext: string): (r: Flow)
    ensures r == Continue
  {
    match MimeCheck(f, ext)
    case Raise(_) => Continue
    case other => other
  }

  /** `text.split('\n')[0]`. */
  function FirstLine(text: string): (r: string)
    ensures '\n' !in r && |r| <= |text| && r == text[..|r|]
    ensures r == text || (|r| < |text| && text[|r|] == '\n')
  {
    var i := IndexOf(text, '\n');
    if i < 0 then text else text[..i]
  }

  /** The CSV branch: undecodable bytes raise, a blank first line is rejected. */
  function CsvCheck(head: CsvHead): (r: Flow)
    ensures r == Continue <==> head.Decoded? && Strip(FirstLine(head.text)) != ""
    ensures r.Raise? && head.Decoded? ==> r.raised == Rejected(InvalidCsv)
  {
    match head
    case Undecodable => Raise(UnicodeDecode)
    case Decoded(text) => if Strip(FirstLine(text)) == "" then Raise(Rejected(InvalidCsv)) else Continue
  }

  /** The trial `read_excel(..., nrows=1)`. */
  function ExcelRead(p: ExcelProbe): Flow {
    match p
    case PandasMissing => Raise(ImportFailure)
    case EngineMissing => Raise(ImportFailure)
    case ProbeFailed => Raise(OtherFailure)
    case FirstRow(empty) => if empty then Raise(Rejected(InvalidExcel)) else Continue
  }

  /** The handlers around the trial read: an `ImportError` skips the check, anything else,
      the empty-file rejection included, becomes "unreadable Excel". */
  function ExcelHandler(r: Flow): (h: Flow)
    ensures h == Continue || h == Raise(Rejected(UnreadableExcel))
    ensures r == Continue ==> h == Continue
  {
    match r
    case Raise(ImportFailure) => Continue
    case Raise(_) => Raise(Rejected(UnreadableExcel))
    case _ => Continue
  }

  /** The body of the content check. The `import pandas` sits outside the inner handlers,
      so a missing pandas escapes them. */
  function ContentCheck(f: UploadedFile, ext: string): (r: Flow)
    ensures r != Return
  {
    if ext == ".csv" then CsvCheck(f.csvHead)
    else if f.excelProbe.PandasMissing? then Raise(ImportFailure)
    else ExcelHandler(ExcelRead(f.excelProbe))
  }

  /** What the content check lets through. */
  predicate ContentAccepted(f: UploadedFile, ext: string) {
    if ext == ".csv" then f.csvHead.Decoded? && Strip(FirstLine(f.csvHead.text)) != ""
    else f.excelProbe.EngineMissing? || f.excelProbe == FirstRow(false)
  }

  /** The content check with its outer handlers: a decoding failure is reported as an
      encoding error and every other exception, the form's own rejections included, as an
      unreadable file. */
  function ContentStage(f: UploadedFile, ext: string): (r: Result<(), FormError>)
    ensures r.Success? <==> ContentAccepted(f, ext)
    ensures r == Failure(EncodingError) <==> ext == ".csv" && f.csvHead.Undecodable?
    ensures r.Failure? ==> r.error in {EncodingError, UnreadableFile}
  {
    match ContentCheck(f, ext)
    case Raise(UnicodeDecode) => Failure(EncodingError)
    case Raise(_) => Failure(UnreadableFile)
    case _ => Success(())
  }

  /** The lower-cased `os.path.splitext` extension `clean_file` works with. */
  function Extension(name: string): string {
    Lower(SplitExt(name))
  }

  /** `clean_file`. A file object with an empty name is falsy, so it counts as missing. */
  function CleanFile(file: Option<UploadedFile>): (r: Result<UploadedFile, FormError>)
    ensures r.Success? ==> file == Some(r.value)
    ensures r.Success? <==>
      && file.Some? && file.value.name != ""
      && 0 < file.value.size <= MaxUploadSize
      && Extension(file.value.name) in AllowedExtensions
      && ContentAccepted(file.value, Extension(file.value.name))
    ensures r == Failure(MissingFile) <==> file.None? || file.value.name == ""
    ensures r == Failure(FileTooLarge) <==> file.Some? && file.value.name != "" && file.value.size > MaxUploadSize
    ensures r == Failure(EmptyFile) <==> file.Some? && file.value.name != "" && file.value.size == 0
    ensures r == Failure(InvalidExtension) <==>
      file.Some? && file.value.name != "" && 0 < file.value.size <= MaxUploadSize
      && Extension(file.value.name) !in AllowedExtensions
    ensures (file.Some? && file.value.name != "" && 0 < file.value.size <= MaxUploadSize
             && Extension(file.value.name) in AllowedExtensions) ==>
      var content := ContentStage(file.value, Extension(file.value.name));
      r == (if content.Success? then Success(file.value) else Failure(content.error))
    ensures r.Failure? ==> r.error in {MissingFile, FileTooLarge, EmptyFile, InvalidExtension, EncodingError, UnreadableFile}
  {
    if file.None? || file.value.name == "" then Failure(MissingFile)
    else
      var f := file.value;
      if f.size > MaxUploadSize then Failure(FileTooLarge)
      else if f.size == 0 then Failure(EmptyFile)
      else
        var ext := Extension(f.name);
        if ext !in AllowedExtensions then Failure(InvalidExtension)
        else if MimeStage(f, ext) == Return then Success(f)
        else
          var _ :- ContentStage(f, ext);
          Success(f)
  }

  /** `FileExtensionValidator`: the lower-cased `pathlib` suffix, without its dot. */
  predicate ValidatorAccepts(name: string) {
    var suffix := PathSuffix(name);
    Lower(if |suffix| > 0 then suffix[1..] else suffix) in ValidatorExtensions
  }

  /** `FileField.clean` and the extension validator, which run before `clean_file`. */
  function FieldClean(file: Option<UploadedFile>): (r: Result<UploadedFile, FormError>)
    ensures r.Success? <==> file.Some? && file.value.name != "" && file.value.size > 0 && ValidatorAccepts(file.value.name)
    ensures r.Success? ==> r.value == file.value
    ensures r.Failure? ==> r.error in {Required, NoFileName, EmptyUpload, InvalidExtension}
  {
    match file
    case None => Failure(Required)
    case Some(f) =>
      if f.name == "" then Failure(NoFileName)
      else if f.size == 0 then Failure(EmptyUpload)
      else if !ValidatorAccepts(f.name) then Failure(InvalidExtension)
      else Success(f)
  }

  /** `form.is_valid()` for the file field: the field's checks, then `clean_file`. */
  function IsValid(file: Option<UploadedFile>): (r: Result<UploadedFile, FormError>)
    ensures r.Success? ==> CleanFile(file).Success? && file == Some(r.value)
  {
    var f :- FieldClean(file);
    CleanFile(Some(f))
  }

  /** An extension `clean_file` allows also passes the extension validator. */
  lemma AllowedExtensionPassesValidator(name: string)
    requires Extension(name) in AllowedExtensions
    ensures ValidatorAccepts(name)
  {
    var ext := SplitExt(name);
    assert |ext| >= 4;
    SplitExtIsPathSuffix(name);
    assert Lower(ext[1..]) == Lower(ext)[1..];
  }

  /** The form accepts exactly the files `clean_file` accepts: the field checks add nothing
      to what `clean_file` demands. */
  lemma FormAcceptsWhatCleanFileAccepts(file: Option<UploadedFile>)
    ensures IsValid(file).Success? <==> CleanFile(file).Success?
  {
    if CleanFile(file).Success? {
      AllowedExtensionPassesValidator(file.value.name);
    }
  }

  /** Behind the field checks, `clean_file`'s own missing-file and empty-file rejections
      are never the reason a form fails. */
  lemma FieldChecksShadowCleanFile(file: Option<UploadedFile>)
    ensures IsValid(file).Failure? ==> IsValid(file).error !in {MissingFile, EmptyFile}
  {
  }

  /** `clean_file` only ever reports these codes; a MIME mismatch, a blank CSV line and an
      empty or unreadable workbook all surface as "unreadable file". */
  lemma CleanFileNeverReportsInnerCodes(file: Option<UploadedFile>)
    ensures CleanFile(file).Failure? ==>
      CleanFile(file).error !in {InvalidMimeType, InvalidCsv, InvalidExcel, UnreadableExcel}
  {
  }

  /** The sniffed MIME type never changes the outcome. */
  lemma SniffIsIrrelevant(f: UploadedFile, sniff: MimeSniff)
    ensures CleanFile(Some(f)).Success? <==> CleanFile(Some(f.(sniff := sniff))).Success?
    ensures CleanFile(Some(f)).Failure? ==> CleanFile(Some(f)) == CleanFile(Some(f.(sniff := sniff)))
  {
  }
}

=== FILE: movies.dfy ===
/** The `Movie` record of movies/models.py: its fields and defaults, the validation that
    `full_clean` performs (field validators, the model's own `clean`, the unique
    (title, year) constraint), `save`, and the two derived properties. */
module Movies {
  import opened Results
  import opened PyText

  const TitleMaxLength: nat := 255
  const LongTextMaxLength: nat := 255
  const ShortTextMaxLength: nat := 100
  const MinYear: int := 1888
  const MaxYear: int := 2100
  const MaxRuntime: int := 1000
  const MaxRating: real := 10.0
  const MaxMetascore: int := 100
  /** The range Django's MySQL backend gives a `PositiveIntegerField`; `full_clean` adds
      it to the validators of `votes`, which declares no bound of its own. */
  const MaxPositiveInteger: int := 4294967295
  const PopularVotes: int := 10000
  const PopularRating: real := 8.0

  /** A movie. Nullable columns are `Option`s; the `updated_at` timestamp is not modelled. */
  datatype Movie = Movie(
    title: string,
    genre: Option<string>,
    director: Option<string>,
    year: int,
    runtime: Option<int>,
    rating: real,
    votes: int,
    actors: Option<string>,
    revenue: Option<real>,
    metascore: Option<int>,
    description: Option<string>,
    country: Option<string>,
    language: Option<string>)

  /** `Movie(title=t, year=y)`: every other field takes its declared default. Genre and
      director declare none and are nullable, so they start as None. */
  function NewMovie(title: string, year: int): (m: Movie)
    ensures m.title == title && m.year == year
    ensures m.rating == 0.0 && m.votes == 0 && m.runtime == Some(0) && m.metascore == Some(0)
    ensures m.revenue == Some(0.0) && m.genre.None? && m.director.None?
    ensures m.actors == Some("") && m.description == Some("") && m.country == Some("") && m.language == Some("")
  {
    Movie(title, None, None, year, Some(0), 0.0, 0, Some(""), Some(0.0), Some(0), Some(""), Some(""), Some(""))
  }

  /** The validation errors `full_clean` can report. */
  datatype Violation =
    | TitleBlank | TitleTooLong | GenreTooLong | DirectorTooLong | CountryTooLong | LanguageTooLong
    | YearTooSmall | YearTooLarge | RuntimeNegative | RuntimeTooLarge | RatingNegative | RatingTooLarge
    | VotesNegative | VotesTooLarge | RevenueNegative | MetascoreNegative | MetascoreTooLarge
    | TitleRequired | YearRequired | DuplicateTitleYear

  predicate TextFits(t: Option<string>, max: nat) {
    t.None? || |t.value| <= max
  }

  /** The bounds the field declarations state. */
  predicate WithinFieldBounds(m: Movie) {
    && 0 < |m.title| <= TitleMaxLength
    && TextFits(m.genre, LongTextMaxLength)
    && TextFits(m.director, LongTextMaxLength)
    && TextFits(m.country, ShortTextMaxLength)
    && TextFits(m.language, ShortTextMaxLength)
    && MinYear <= m.year <= MaxYear
    && (m.runtime.None? || 0 <= m.runtime.value <= MaxRuntime)
    && 0.0 <= m.rating <= MaxRating
    && 0 <= m.votes <= MaxPositiveInteger
    && (m.revenue.None? || 0.0 <= m.revenue.value)
    && (m.metascore.None? || 0 <= m.metascore.value <= MaxMetascore)
  }

  /** The max-length check of a nullable, blank-allowed text field. */
  function LengthCheck(t: Option<string>, max: nat, v: Violation): (r: set<Violation>)
    ensures r == {} <==> TextFits(t, max)
    ensures r <= {v}
  {
    if t.Some? && |t.value| > max then {v} else {}
  }

  /** The violations of title and year, the two key fields. */
  function KeyFieldViolations(m: Movie): (v: set<Violation>)
    ensures v == {} <==> 0 < |m.title| <= TitleMaxLength && MinYear <= m.year <= MaxYear
  {
    (if m.title == "" then {TitleBlank} else if |m.title| > TitleMaxLength then {TitleTooLong} else {})
    + (if m.year < MinYear then {YearTooSmall} else if m.year > MaxYear then {YearTooLarge} else {})
  }

  /** The violations of the four text fields other than the title. */
  function TextFieldViolations(m: Movie): (v: set<Violation>)
    ensures v == {} <==> TextFits(m.genre, LongTextMaxLength) && TextFits(m.director, LongTextMaxLength)
                         && TextFits(m.country, ShortTextMaxLength) && TextFits(m.language, ShortTextMaxLength)
  {
    LengthCheck(m.genre, LongTextMaxLength, GenreTooLong)
    + LengthCheck(m.director, LongTextMaxLength, DirectorTooLong)
    + LengthCheck(m.country, ShortTextMaxLength, CountryTooLong)
    + LengthCheck(m.language, ShortTextMaxLength, LanguageTooLong)
  }

  /** The violations of the numeric fields other than the year. */
  function NumberFieldViolations(m: Movie): (v: set<Violation>)
    ensures v == {} <==> && (m.runtime.None? || 0 <= m.runtime.value <= MaxRuntime)
                         && 0.0 <= m.rating <= MaxRating
                         && 0 <= m.votes <= MaxPositiveInteger
                         && (m.revenue.None? || 0.0 <= m.revenue.value)
                         && (m.metascore.None? || 0 <= m.metascore.value <= MaxMetascore)
  {
    (match m.runtime
     case None => {}
     case Some(r) => if r < 0 then {RuntimeNegative} else if r > MaxRuntime then {RuntimeTooLarge} else {})
    + (if m.rating < 0.0 then {RatingNegative} else if m.rating > MaxRating then {RatingTooLarge} else {})
    + (if m.votes < 0 then {VotesNegative} else if m.votes > MaxPositiveInteger then {VotesTooLarge} else {})
    + (match m.revenue case None => {} case Some(r) => if r < 0.0 then {RevenueNegative} else {})
    + (match m.metascore
       case None => {}
       case Some(s) => if s < 0 then {MetascoreNegative} else if s > MaxMetascore then {MetascoreTooLarge} else {})
  }

  /** The violations the field declarations report (`clean_fields`). A blank title fails
      the non-blank rule and skips its validators; a None in a nullable field skips them. */
  function FieldViolations(m: Movie): (v: set<Violation>)
    ensures v == {} <==> WithinFieldBounds(m)
  {
    KeyFieldViolations(m) + TextFieldViolations(m) + NumberFieldViolations(m)
  }

  /** The model's own `clean`: strips title and director, cuts an overlong genre to 255
      characters, then raises on the first of an empty title or a falsy (zero) year. */
  function Clean(m: Movie): (r: (Movie, Option<Violation>))
    ensures r.0.title == Strip(m.title)
    ensures r.0.director == (if m.director.Some? then Some(Strip(m.director.value)) else None)
    ensures TextFits(r.0.genre, LongTextMaxLength)
    ensures TextFits(m.genre, LongTextMaxLength) ==> r.0.genre == m.genre
    ensures m.genre.Some? && |m.genre.value| > LongTextMaxLength ==> r.0.genre == Some(m.genre.value[..LongTextMaxLength])
    ensures && r.0.year == m.year && r.0.runtime == m.runtime && r.0.rating == m.rating && r.0.votes == m.votes
            && r.0.actors == m.actors && r.0.revenue == m.revenue && r.0.metascore == m.metascore
            && r.0.description == m.description && r.0.country == m.country && r.0.language == m.language
    ensures r.1 == Some(TitleRequired) <==> Strip(m.title) == ""
    ensures r.1 == Some(YearRequired) <==> Strip(m.title) != "" && m.year == 0
    ensures r.1.None? <==> Strip(m.title) != "" && m.year != 0
  {
    var title := if m.title != "" then Strip(m.title) else m.title;
    var director := if m.director.Some? && m.director.value != "" then Some(Strip(m.director.value)) else m.director;
    var genre := if m.genre.Some? && m.genre.value != "" && |m.genre.value| > LongTextMaxLength
      then Some(Take(m.genre.value, LongTextMaxLength)) else m.genre;
    var cleaned := m.(title := title, director := director, genre := genre);
    var error := if title == "" then Some(TitleRequired) else if m.year == 0 then Some(YearRequired) else None;
    (cleaned, error)
  }

  /** The key of the unique constraint `unique_movie_title_year`. */
  type Key = (string, int)

  function KeyOf(m: Movie): Key {
    (m.title, m.year)
  }

  /** The stored movies, indexed by the unique (title, year) key: a map holds at most one
      record per key. */
  type Store = map<Key, Movie>

  /** Every record is filed under its own (title, year). */
  predicate Consistent(s: Store) {
    forall k :: k in s ==> KeyOf(s[k]) == k
  }

  /** Every record satisfies the field bounds. */
  predicate AllWithinBounds(s: Store) {
    forall k :: k in s ==> WithinFieldBounds(s[k])
  }

  function OptionSet(v: Option<Violation>): set<Violation> {
    if v.Some? then {v.value} else {}
  }

  /** The unique constraint fails when title and year passed their validators and a stored
      record already has the cleaned record's key. */
  predicate Duplicate(m: Movie, s: Store) {
    KeyFieldViolations(m) == {} && KeyOf(Clean(m).0) in s
  }

  /** `full_clean` of a new record against the stored ones: field validators, then `clean`,
      then the unique constraint, which is skipped when title or year already failed.
      Errors are collected, not raised one by one; on success the cleaned record comes back. */
  function FullClean(m: Movie, s: Store): (r: Result<Movie, set<Violation>>)
    ensures r.Success? ==> r.value == Clean(m).0
  {
    var (cleaned, cleanError) := Clean(m);
    if WithinFieldBounds(m) && cleanError.None? && !Duplicate(m, s) then Success(cleaned)
    else Failure(FieldViolations(m) + OptionSet(cleanError) + (if Duplicate(m, s) then {DuplicateTitleYear} else {}))
  }

  /** `full_clean` passes exactly when the field validators pass, the stripped title is not
      empty, and no stored record has the cleaned record's key. (A zero year never gets
      this far: the year validator already rejects it.) */
  lemma FullCleanAccepts(m: Movie, s: Store)
    ensures FullClean(m, s).Success? <==> WithinFieldBounds(m) && Strip(m.title) != "" && KeyOf(Clean(m).0) !in s
  {
    if WithinFieldBounds(m) {
      assert KeyFieldViolations(m) == {};
      assert m.year != 0;
    }
  }

  /** A failing `full_clean` reports at least one error: every failed validator, the error
      `clean` raised, and the unique constraint when it fired. */
  lemma FullCleanReports(m: Movie, s: Store)
    requires FullClean(m, s).Failure?
    ensures var e := FullClean(m, s).error;
      && e != {} && FieldViolations(m) <= e
      && (Clean(m).1.Some? ==> Clean(m).1.value in e)
      && (Duplicate(m, s) ==> DuplicateTitleYear in e)
  {
    var e := FullClean(m, s).error;
    if !WithinFieldBounds(m) {
      var v :| v in FieldViolations(m);
      assert v in e;
    } else if Clean(m).1.Some? {
      assert Clean(m).1.value in OptionSet(Clean(m).1);
    } else {
      assert DuplicateTitleYear in e;
    }
  }

  /** A record `full_clean` passes is stripped, keeps its genre, still satisfies the
      validators, and has a key no stored record has. */
  lemma FullCleanResult(m: Movie, s: Store)
    requires FullClean(m, s).Success?
    ensures var c := FullClean(m, s).value;
      && c == Clean(m).0 && c.genre == m.genre && WithinFieldBounds(c) && KeyOf(c) !in s && Strip(c.title) == c.title
  {
    FullCleanAccepts(m, s);
    StripIdempotent(m.title);
  }

  /** `save`: `full_clean` first, then the insert (see `SaveInserts`,
      `SaveKeepsConsistency` and `SaveKeepsFieldBounds`). */
  function Save(m: Movie, s: Store): (r: Result<Store, set<Violation>>)
    ensures r.Success? <==> FullClean(m, s).Success?
    ensures r.Failure? ==> r.error == FullClean(m, s).error
  {
    var c :- FullClean(m, s);
    Success(s[KeyOf(c) := c])
  }

  /** A successful `save` stores the record `full_clean` returned under its own key. */
  lemma SaveStoresCleanRecord(m: Movie, s: Store)
    requires Save(m, s).Success?
    ensures FullClean(m, s).Success?
    ensures Save(m, s).value == s[KeyOf(FullClean(m, s).value) := FullClean(m, s).value]
  {
  }

  /** Adding a record under a free key grows the store by one and keeps the rest. */
  lemma InsertFresh(s: Store, k: Key, c: Movie)
    requires k !in s
    ensures |s[k := c]| == |s| + 1 && s[k := c].Keys == s.Keys + {k}
    ensures forall j :: j in s ==> s[k := c][j] == s[j]
  {
    assert s[k := c].Keys == s.Keys + {k};
  }

  /** A successful `save` adds exactly one record, the cleaned one, under a key that was
      free, and leaves every other record alone. */
  lemma SaveInserts(m: Movie, s: Store)
    requires Save(m, s).Success?
    ensures var c := FullClean(m, s).value;
      && KeyOf(c) !in s && KeyOf(c) in Save(m, s).value && Save(m, s).value[KeyOf(c)] == c
      && |Save(m, s).value| == |s| + 1
      && Save(m, s).value.Keys == s.Keys + {KeyOf(c)}
      && forall k :: k in s ==> Save(m, s).value[k] == s[k]
  {
    SaveStoresCleanRecord(m, s);
    var c := FullClean(m, s).value;
    FullCleanResult(m, s);
    InsertFresh(s, KeyOf(c), c);
  }

  /** Filing a record under its own key keeps the store consistent, and keeps every record
      within the field bounds when the new one is. */
  lemma InsertKeepsInvariants(s: Store, c: Movie)
    ensures Consistent(s) ==> Consistent(s[KeyOf(c) := c])
    ensures AllWithinBounds(s) && WithinFieldBounds(c) ==> AllWithinBounds(s[KeyOf(c) := c])
  {
  }

  /** Whatever `save` stores is filed under its key, so the store stays consistent. */
  lemma SaveKeepsConsistency(m: Movie, s: Store)
    requires Save(m, s).Success?
    ensures Consistent(s) ==> Consistent(Save(m, s).value)
  {
    SaveStoresCleanRecord(m, s);
    InsertKeepsInvariants(s, FullClean(m, s).value);
  }

  /** Whatever `save` stores satisfies the validators, so every stored record still does. */
  lemma SaveKeepsFieldBounds(m: Movie, s: Store)
    requires Save(m, s).Success?
    ensures AllWithinBounds(s) ==> AllWithinBounds(Save(m, s).value)
  {
    SaveStoresCleanRecord(m, s);
    FullCleanResult(m, s);
    InsertKeepsInvariants(s, FullClean(m, s).value);
  }

  /** `rating_percentage`: a zero rating short-circuits to 0, which agrees with scaling. */
  function RatingPercentage(m: Movie): (p: real)
    ensures p == m.rating * 10.0
    ensures 0.0 <= m.rating <= MaxRating ==> 0.0 <= p <= 100.0
  {
    if m.rating != 0.0 then m.rating * 10.0 else 0.0
  }

  /** `is_popular`. */
  predicate IsPopular(m: Movie) {
    m.votes > PopularVotes || m.rating >= PopularRating
  }

  /** Popularity only grows with more votes and a higher rating. */
  lemma PopularityIsMonotone(m: Movie, n: Movie)
    requires m.votes <= n.votes && m.rating <= n.rating
    ensures IsPopular(m) ==> IsPopular(n)
    ensures !IsPopular(n) ==> n.votes <= PopularVotes && n.rating < PopularRating
  {
  }

  /** Year 0 counts as missing: `clean` raises for it even when the title is fine, and
      `full_clean` reports it next to the year validator's own error. */
  lemma ZeroYearIsMissing(m: Movie, s: Store)
    requires Strip(m.title) != "" && m.year == 0
    ensures Clean(m).1 == Some(YearRequired)
    ensures FullClean(m, s).Failure? && YearRequired in FullClean(m, s).error && YearTooSmall in FullClean(m, s).error
  {
    FullCleanAccepts(m, s);
    FullCleanReports(m, s);
    assert YearTooSmall in KeyFieldViolations(m);
  }

  /** A record built from a title and a year with every other field left at its default
      passes the field validators exactly when title and year do. */
  lemma DefaultsPassValidators(title: string, year: int)
    ensures WithinFieldBounds(NewMovie(title, year)) <==> 0 < |title| <= TitleMaxLength && MinYear <= year <= MaxYear
  {
  }
}

=== FILE: partitions.dfy ===
/** Splitting a sequence of per-row outcomes into the successes and the numbered failures,
    the shape of every "collect the good rows, log the bad ones" loop in the ingestion code. */
module Partitions {
  import opened Results

  /** Walks `rs` in order: successes go to the first list, each failure goes to the second
      list with its position, numbered from `base`. */
  function Split<A, E>(rs: seq<Result<A, E>>, base: int): (p: (seq<A>, seq<(int, E)>))
    ensures |p.0| + |p.1| == |rs|
    decreases |rs|
  {
    if |rs| == 0 then ([], [])
    else
      var rest := Split(rs[1..], base + 1);
      match rs[0]
      case Success(a) => ([a] + rest.0, rest.1)
      case Failure(e) => (rest.0, [(base, e)] + rest.1)
  }

  /** The successes `Split` keeps. */
  function Kept<A, E>(rs: seq<Result<A, E>>, base: int): seq<A> {
    Split(rs, base).0
  }

  /** The numbered failures `Split` reports. */
  function Failures<A, E>(rs: seq<Result<A, E>>, base: int): seq<(int, E)> {
    Split(rs, base).1
  }

  /** Each entry of the failure list names a failing position of `rs` and its error. */
  lemma {:induction false} SplitFailuresSound<A, E>(rs: seq<Result<A, E>>, base: int)
    ensures forall k :: 0 <= k < |Failures(rs, base)| ==>
      var e := Failures(rs, base)[k];
      base <= e.0 < base + |rs| && rs[e.0 - base] == Failure(e.1)
    decreases |rs|
  {
    if |rs| > 0 {
      var errs := Failures(rs, base);
      var rest := Failures(rs[1..], base + 1);
      SplitFailuresSound(rs[1..], base + 1);
      var shift := if rs[0].Failure? then 1 else 0;
      assert errs == (if rs[0].Failure? then [(base, rs[0].error)] else []) + rest;
      forall k | shift <= k < |errs|
        ensures base <= errs[k].0 < base + |rs| && rs[errs[k].0 - base] == Failure(errs[k].1)
      {
        assert errs[k] == rest[k - shift];
        var j := k - shift;
        assert 0 <= j < |rest|;
        assert base + 1 <= rest[j].0 < base + 1 + |rs[1..]|;
        assert rs[1..][rest[j].0 - (base + 1)] == Failure(rest[j].1);
        assert rs[1..][errs[k].0 - base - 1] == rs[errs[k].0 - base];
      }
    }
  }

  /** Every failing position of `rs` appears in the failure list with its error. */
  lemma {:induction false} SplitFailuresComplete<A, E>(rs: seq<Result<A, E>>, base: int)
    ensures forall i :: 0 <= i < |rs| && rs[i].Failure? ==> (base + i, rs[i].error) in Failures(rs, base)
    decreases |rs|
  {
    if |rs| > 0 {
      var errs := Failures(rs, base);
      var rest := Failures(rs[1..], base + 1);
      SplitFailuresComplete(rs[1..], base + 1);
      assert errs == (if rs[0].Failure? then [(base, rs[0].error)] else []) + rest;
      forall i | 1 <= i < |rs| && rs[i].Failure?
        ensures (base + i, rs[i].error) in errs
      {
        assert rs[1..][i - 1] == rs[i];
        assert (base + 1 + (i - 1), rs[i].error) in rest;
      }
    }
  }

  /** The failure list is in input order, its positions between `base` and `base + |rs|`. */
  lemma {:induction false} SplitFailuresOrdered<A, E>(rs: seq<Result<A, E>>, base: int)
    ensures forall k :: 0 <= k < |Failures(rs, base)| ==> base <= Failures(rs, base)[k].0 < base + |rs|
    ensures forall j, k :: 0 <= j < k < |Failures(rs, base)| ==> Failures(rs, base)[j].0 < Failures(rs, base)[k].0
    decreases |rs|
  {
    if |rs| > 0 {
      var errs := Failures(rs, base);
      var rest := Failures(rs[1..], base + 1);
      SplitFailuresOrdered(rs[1..], base + 1);
      var shift := if rs[0].Failure? then 1 else 0;
      assert errs == (if rs[0].Failure? then [(base, rs[0].error)] else []) + rest;
      forall k | shift <= k < |errs|
        ensures errs[k] == rest[k - shift]
      {
      }
    }
  }

  /** Positions of the successes of `rs`, numbered from `base`, in input order. */
  function SuccessPositions<A, E>(rs: seq<Result<A, E>>, base: int): (ix: seq<int>)
    decreases |rs|
  {
    if |rs| == 0 then []
    else (if rs[0].Success? then [base] else []) + SuccessPositions(rs[1..], base + 1)
  }

  /** The kept values are the successes' values, position by position: the k-th kept value
      is the value of the k-th successful outcome. */
  lemma {:induction false} SplitKeepsOrder<A, E>(rs: seq<Result<A, E>>, base: int)
    ensures |SuccessPositions(rs, base)| == |Kept(rs, base)|
    ensures forall k :: 0 <= k < |SuccessPositions(rs, base)| ==>
      var i := SuccessPositions(rs, base)[k];
      base <= i < base + |rs| && rs[i - base] == Success(Kept(rs, base)[k])
    decreases |rs|
  {
    if |rs| > 0 {
      var ix := SuccessPositions(rs, base);
      var ok := Kept(rs, base);
      var restIx := SuccessPositions(rs[1..], base + 1);
      var restOk := Kept(rs[1..], base + 1);
      SplitKeepsOrder(rs[1..], base + 1);
      var shift := if rs[0].Success? then 1 else 0;
      assert ix == (if rs[0].Success? then [base] else []) + restIx;
      assert ok == (if rs[0].Success? then [rs[0].value] else []) + restOk;
      forall k | shift <= k < |ix|
        ensures base <= ix[k] < base + |rs| && rs[ix[k] - base] == Success(ok[k])
      {
        assert ix[k] == restIx[k - shift] && ok[k] == restOk[k - shift];
        assert rs[1..][ix[k] - base - 1] == rs[ix[k] - base];
      }
    }
  }

  /** Every successful position of `rs` is among the success positions. */
  lemma {:induction false} SuccessPositionsComplete<A, E>(rs: seq<Result<A, E>>, base: int)
    ensures forall i :: 0 <= i < |rs| && rs[i].Success? ==> base + i in SuccessPositions(rs, base)
    decreases |rs|
  {
    if |rs| > 0 {
      var ix := SuccessPositions(rs, base);
      var restIx := SuccessPositions(rs[1..], base + 1);
      SuccessPositionsComplete(rs[1..], base + 1);
      assert ix == (if rs[0].Success? then [base] else []) + restIx;
      forall i | 1 <= i < |rs| && rs[i].Success?
        ensures base + i in ix
      {
        assert rs[1..][i - 1] == rs[i];
        assert base + 1 + (i - 1) in restIx;
      }
    }
  }

  /** The success positions increase strictly: the kept values are in input order. */
  lemma {:induction false} SuccessPositionsOrdered<A, E>(rs: seq<Result<A, E>>, base: int)
    ensures forall k :: 0 <= k < |SuccessPositions(rs, base)| ==> base <= SuccessPositions(rs, base)[k] < base + |rs|
    ensures forall j, k :: 0 <= j < k < |SuccessPositions(rs, base)| ==>
      SuccessPositions(rs, base)[j] < SuccessPositions(rs, base)[k]
    decreases |rs|
  {
    if |rs| > 0 {
      var ix := SuccessPositions(rs, base);
      var restIx := SuccessPositions(rs[1..], base + 1);
      SuccessPositionsOrdered(rs[1..], base + 1);
      var shift := if rs[0].Success? then 1 else 0;
      assert ix == (if rs[0].Success? then [base] else []) + restIx;
      forall k | shift <= k < |ix|
        ensures ix[k] == restIx[k - shift]
      {
      }
    }
  }
}

=== FILE: pytext.dfy ===
/** The pieces of Python's string behaviour the ingestion code relies on:
    `str.strip`, `str.lower`, slicing, `str.endswith`, `os.path.splitext`, and the
    text forms accepted by `int()` and `float()`. */
module PyText {
  import opened Results

  /** `str.isspace` for one code point (the characters Python's `strip()` removes). */
  predicate IsSpace(c: char) {
    || c == ' '
    || ('\t' <= c <= '\r')
    || ('\U{1C}' <= c <= '\U{1F}')
    || c == '\U{85}' || c == '\U{A0}' || c == '\U{1680}'
    || ('\U{2000}' <= c <= '\U{200A}')
    || c == '\U{2028}' || c == '\U{2029}' || c == '\U{202F}' || c == '\U{205F}' || c == '\U{3000}'
  }

  predicate AllSpace(s: string) {
    forall i :: 0 <= i < |s| ==> IsSpace(s[i])
  }

  /** Neither end of `s` is whitespace. */
  predicate Trimmed(s: string) {
    s == [] || (!IsSpace(s[0]) && !IsSpace(s[|s| - 1]))
  }

  /** `s.lstrip()`: drops the leading whitespace and nothing else. */
  function TrimLeft(s: string): (r: string)
    ensures |r| <= |s| && r == s[|s| - |r|..]
    ensures AllSpace(s[..|s| - |r|])
    ensures r == [] || !IsSpace(r[0])
  {
    if |s| > 0 && IsSpace(s[0]) then
      var r := TrimLeft(s[1..]);
      assert s[..|s| - |r|] == [s[0]] + s[1..][..|s| - 1 - |r|];
      r
    else
      s
  }

  /** `s.rstrip()`: drops the trailing whitespace and nothing else. */
  function TrimRight(s: string): (r: string)
    ensures |r| <= |s| && r == s[..|r|]
    ensures AllSpace(s[|r|..])
    ensures r == [] || !IsSpace(r[|r| - 1])
  {
    if |s| > 0 && IsSpace(s[|s| - 1]) then
      var r := TrimRight(s[..|s| - 1]);
      assert s[|r|..] == s[..|s| - 1][|r|..] + [s[|s| - 1]];
      r
    else
      s
  }

  /** `s.strip()`: `s` without its leading and trailing whitespace (see `StripPadded`). */
  function Strip(s: string): (r: string)
    ensures Trimmed(r)
    ensures |r| <= |s|
  {
    TrimRight(TrimLeft(s))
  }

  lemma {:induction false} TrimLeftPadded(pre: string, rest: string)
    requires AllSpace(pre)
    requires rest == [] || !IsSpace(rest[0])
    ensures TrimLeft(pre + rest) == rest
    decreases |pre|
  {
    if |pre| > 0 {
      assert (pre + rest)[1..] == pre[1..] + rest;
      TrimLeftPadded(pre[1..], rest);
    } else {
      assert pre + rest == rest;
    }
  }

  lemma {:induction false} TrimRightPadded(rest: string, post: string)
    requires AllSpace(post)
    requires rest == [] || !IsSpace(rest[|rest| - 1])
    ensures TrimRight(rest + post) == rest
    decreases |post|
  {
    if |post| > 0 {
      assert (rest + post)[..|rest + post| - 1] == rest + post[..|post| - 1];
      TrimRightPadded(rest, post[..|post| - 1]);
    } else {
      assert rest + post == rest;
    }
  }

  /** Stripping removes exactly the whitespace padding: any whitespace before and after a
      trimmed core is removed, and the core is kept intact. */
  lemma StripPadded(pre: string, core: string, post: string)
    requires AllSpace(pre) && AllSpace(post) && Trimmed(core)
    ensures Strip(pre + core + post) == core
  {
    if core == [] {
      assert pre + core + post == pre + post;
      TrimLeftPadded(pre + post, []);
      assert pre + post + [] == pre + post;
      assert TrimLeft(pre + post) == [];
    } else {
      assert pre + core + post == pre + (core + post);
      TrimLeftPadded(pre, core + post);
      TrimRightPadded(core, post);
    }
  }

  /** Stripping twice is stripping once. */
  lemma StripIdempotent(s: string)
    ensures Strip(Strip(s)) == Strip(s)
  {
    var r := Strip(s);
    StripPadded([], r, []);
    assert [] + r + [] == r;
  }

  /** `str.lower` on one character; only the ASCII letters are mapped. */
  function LowerChar(c: char): char {
    if 'A' <= c <= 'Z' then (c as int + 32) as char else c
  }

  function Lower(s: string): (r: string)
    ensures |r| == |s|
  {
    seq(|s|, i requires 0 <= i < |s| => LowerChar(s[i]))
  }

  lemma LowerIdempotent(s: string)
    ensures Lower(Lower(s)) == Lower(s)
  {
  }

  /** `s[:n]`: the first `n` characters, or all of `s` when it is shorter. */
  function Take(s: string, n: nat): (r: string)
    ensures |r| <= n && |r| <= |s| && r == s[..|r|]
    ensures |s| <= n ==> r == s
    ensures |s| > n ==> |r| == n
  {
    if |s| <= n then s else s[..n]
  }

  predicate EndsWith(s: string, suffix: string) {
    |suffix| <= |s| && s[|s| - |suffix|..] == suffix
  }

  /** Index of the last occurrence of `c` in `s`, or -1. */
  function LastIndexOf(s: string, c: char): (r: int)
    ensures -1 <= r < |s|
    ensures r >= 0 ==> s[r] == c
    ensures forall j :: r < j < |s| ==> s[j] != c
  {
    if |s| == 0 then -1
    else if s[|s| - 1] == c then |s| - 1
    else LastIndexOf(s[..|s| - 1], c)
  }

  /** Index of the first occurrence of `c` in `s`, or -1. */
  function IndexOf(s: string, c: char): (r: int)
    ensures -1 <= r < |s|
    ensures r >= 0 ==> s[r] == c
    ensures forall j :: 0 <= j < |s| && (r < 0 || j < r) ==> s[j] != c
  {
    if |s| == 0 then -1
    else if s[0] == c then 0
    else var k := IndexOf(s[1..], c); if k < 0 then -1 else k + 1
  }

  /** The extension part of `os.path.splitext(p)` (POSIX flavour): from the last dot of the
      final path component, provided that dot is not part of the component's leading dots. */
  function SplitExt(p: string): (ext: string)
    ensures ext == [] || (ext[0] == '.' && EndsWith(p, ext) && '.' !in ext[1..] && '/' !in ext)
  {
    var sep := LastIndexOf(p, '/');
    var dot := LastIndexOf(p, '.');
    if dot > sep && exists k :: sep + 1 <= k < dot && p[k] != '.' then
      p[dot..]
    else
      []
  }

  /** A name whose last component is `stem` + `ext` has extension `ext` when `stem` ends in
      something other than a dot or a slash and `ext` is a dot followed by a dot-free,
      slash-free word. */
  lemma SplitExtOfName(stem: string, ext: string)
    requires |stem| > 0 && stem[|stem| - 1] != '.' && stem[|stem| - 1] != '/'
    requires |ext| > 0 && ext[0] == '.' && '.' !in ext[1..] && '/' !in ext
    ensures SplitExt(stem + ext) == ext
  {
    var p := stem + ext;
    var dot := LastIndexOf(p, '.');
    var sep := LastIndexOf(p, '/');
    assert p[|stem|] == '.';
    forall j | |stem| < j < |p|
      ensures p[j] != '.' && p[j] != '/'
    {
      assert p[j] == ext[1..][j - |stem| - 1];
    }
    assert p[|stem| - 1] != '.';
    assert dot == |stem|;
    assert sep < |stem| - 1 || sep == -1 || sep < dot;
    assert sep != |stem| - 1;
    assert p[dot..] == ext;
  }

  /** `pathlib.PurePosixPath(p).suffix`: from the last dot of the final component, provided
      that dot is neither the component's first nor its last character. The last dot of the
      component is the last dot of `p` when that lies after the last slash, so the positions
      are taken in `p` itself. */
  function PathSuffix(p: string): (ext: string)
    ensures ext == [] || (|ext| >= 2 && ext[0] == '.' && EndsWith(p, ext) && '.' !in ext[1..] && '/' !in ext)
  {
    var sep := LastIndexOf(p, '/');
    var dot := LastIndexOf(p, '.');
    if sep + 1 < dot < |p| - 1 then p[dot..] else []
  }

  /** A non-empty `os.path.splitext` extension starts at the last dot, which comes after
      some non-dot character of the final component. */
  lemma SplitExtShape(p: string)
    requires SplitExt(p) != []
    ensures LastIndexOf(p, '/') + 1 < LastIndexOf(p, '.')
    ensures SplitExt(p) == p[LastIndexOf(p, '.')..]
  {
    var sep := LastIndexOf(p, '/');
    var dot := LastIndexOf(p, '.');
    assert dot > sep && exists k :: sep + 1 <= k < dot && p[k] != '.';
    var k :| sep + 1 <= k < dot && p[k] != '.';
  }

  /** Whenever `os.path.splitext` finds an extension longer than a bare dot, `pathlib`'s
      suffix is the same string. */
  lemma SplitExtIsPathSuffix(p: string)
    requires |SplitExt(p)| >= 2
    ensures PathSuffix(p) == SplitExt(p)
  {
    SplitExtShape(p);
  }

  /** Decimal digit value of a character, for the digit sets `int()` and `float()` accept
      here: ASCII, Arabic-Indic and Extended Arabic-Indic digits. */
  function DigitValue(c: char): Option<nat>
    ensures DigitValue(c).Some? ==> DigitValue(c).value < 10
  {
    if '0' <= c <= '9' then Some(c as int - '0' as int)
    else if '\U{0660}' <= c <= '\U{0669}' then Some(c as int - 0x0660)
    else if '\U{06F0}' <= c <= '\U{06F9}' then Some(c as int - 0x06F0)
    else None
  }

  predicate AllDigits(s: string) {
    forall i :: 0 <= i < |s| ==> DigitValue(s[i]).Some?
  }

  /** The number a string of digits denotes (0 for the empty string). */
  function DigitsValue(s: string): nat
    requires AllDigits(s)
  {
    if |s| == 0 then 0 else DigitsValue(s[..|s| - 1]) * 10 + DigitValue(s[|s| - 1]).value
  }

  function DigitChar(d: nat): (c: char)
    requires d < 10
    ensures DigitValue(c) == Some(d)
  {
    ('0' as int + d) as char
  }

  /** Python's `str()` of a non-negative integer. */
  function NatToString(n: nat): (r: string)
    ensures |r| > 0 && AllDigits(r) && DigitsValue(r) == n
  {
    if n < 10 then
      var r := [DigitChar(n)];
      assert r[..0] == [];
      r
    else
      var r := NatToString(n / 10) + [DigitChar(n % 10)];
      assert r[..|r| - 1] == NatToString(n / 10);
      r
  }

  /** Python's `str()` of an integer. */
  function IntToString(i: int): (r: string)
    ensures |r| > 0
  {
    if i < 0 then "-" + NatToString(-i) else NatToString(i)
  }

  /** Splits an optional leading sign off `t`: the rest, and whether the sign was `-`. */
  function SignedBody(t: string): (string, bool)
  {
    if |t| > 0 && (t[0] == '-' || t[0] == '+') then (t[1..], t[0] == '-')
    else (t, false)
  }

  /** `int(s)` for a string: surrounding whitespace, an optional sign and at least one
      digit; anything else raises `ValueError`, modelled as `None`. */
  function ParseInt(s: string): Option<int>
  {
    ParseSignedInt(Strip(s))
  }

  /** `int()` of text that has already been stripped. */
  function ParseSignedInt(t: string): Option<int>
  {
    var (body, negative) := SignedBody(t);
    if |body| > 0 && AllDigits(body) then
      var v: int := DigitsValue(body);
      Some(if negative then -v else v)
    else
      None
  }

  function Pow10(n: nat): (r: nat)
    ensures r > 0
  {
    if n == 0 then 1 else 10 * Pow10(n - 1)
  }

  /** The value of unsigned decimal text `digits[.digits]`, with at least one digit. */
  function ParseUnsignedDecimal(body: string): Option<real>
  {
    var dot := IndexOf(body, '.');
    if dot < 0 then
      if |body| > 0 && AllDigits(body) then Some(DigitsValue(body) as real) else None
    else
      var whole := body[..dot];
      var frac := body[dot + 1..];
      if (|whole| > 0 || |frac| > 0) && AllDigits(whole) && AllDigits(frac) then
        Some(DigitsValue(whole) as real + DigitsValue(frac) as real / Pow10(|frac|) as real)
      else
        None
  }

  /** `float(s)` for a string: surrounding whitespace, an optional sign and decimal text.
      The value is the exact decimal; rounding to the nearest double is not modelled. */
  function ParseFloat(s: string): Option<real>
  {
    ParseSignedFloat(Strip(s))
  }

  /** `float()` of text that has already been stripped. */
  function ParseSignedFloat(t: string): Option<real>
  {
    var (body, negative) := SignedBody(t);
    match ParseUnsignedDecimal(body)
    case Some(x) => Some(if negative then -x else x)
    case None => None
  }

  /** A string with no whitespace at either end is its own strip. */
  lemma StripOfTrimmed(s: string)
    requires Trimmed(s)
    ensures Strip(s) == s
  {
    StripPadded([], s, []);
    assert [] + s + [] == s;
  }

  lemma DigitIsNotSpace(c: char)
    requires DigitValue(c).Some?
    ensures !IsSpace(c) && c != '-' && c != '+'
  {
  }

  /** Text without padding is parsed as it stands. */
  lemma ParseIntOfTrimmed(s: string)
    requires Trimmed(s)
    ensures ParseInt(s) == ParseSignedInt(s)
  {
    StripOfTrimmed(s);
  }

  lemma ParseIntOfDigits(d: string)
    requires |d| > 0 && AllDigits(d)
    ensures ParseInt(d) == Some(DigitsValue(d) as int)
  {
    DigitIsNotSpace(d[0]);
    DigitIsNotSpace(d[|d| - 1]);
    ParseIntOfTrimmed(d);
    assert SignedBody(d) == (d, false);
  }

  lemma ParseIntOfNegatedDigits(s: string)
    requires |s| > 1 && s[0] == '-' && AllDigits(s[1..])
    ensures ParseInt(s) == Some(-(DigitsValue(s[1..]) as int))
  {
    assert Trimmed(s) by {
      assert s[|s| - 1] == s[1..][|s| - 2];
      DigitIsNotSpace(s[|s| - 1]);
    }
    ParseIntOfTrimmed(s);
    assert ParseSignedInt(s) == Some(-(DigitsValue(s[1..]) as int)) by {
      assert SignedBody(s) == (s[1..], true);
    }
  }

  /** `int(str(i)) == i`: the integer parser reads back what `str()` writes. */
  lemma ParseIntRoundTrip(i: int)
    ensures ParseInt(IntToString(i)) == Some(i)
  {
    if i < 0 {
      var s := IntToString(i);
      assert s[1..] == NatToString(-i);
      ParseIntOfNegatedDigits(s);
    } else {
      ParseIntOfDigits(NatToString(i));
    }
  }

  lemma ParseSignedFloatExtendsInt(t: string, n: int)
    requires ParseSignedInt(t) == Some(n)
    ensures ParseSignedFloat(t) == Some(n as real)
  {
    var (body, negative) := SignedBody(t);
    assert |body| > 0 && AllDigits(body);
    assert IndexOf(body, '.') < 0 by {
      assert DigitValue('.').None?;
    }
    assert ParseUnsignedDecimal(body) == Some(DigitsValue(body) as real);
  }

  /** Every string `int()` accepts, `float()` accepts with the same value, over exact reals
      (with double rounding this holds only up to magnitude 2^53). */
  lemma ParseFloatExtendsParseInt(s: string, n: int)
    requires ParseInt(s) == Some(n)
    ensures ParseFloat(s) == Some(n as real)
  {
    ParseSignedFloatExtendsInt(Strip(s), n);
  }
}

=== FILE: results.dfy ===
/** Option and Result values standing in for Python's None and for raised exceptions.
    Both work with Dafny's `:-` operator. */
module Results {

  datatype Option<+T> = None | Some(value: T) {

    predicate IsFailure() {
      None?
    }

    function PropagateFailure<U>(): Option<U>
      requires None?
    {
      None
    }

    function Extract(): T
      requires Some?
    {
      value
    }
  }

  /** A computation that either produced `value` or raised `error`. */
  datatype Result<+R, +E> = Success(value: R) | Failure(error: E) {

    predicate IsFailure() {
      Failure?
    }

    function PropagateFailure<U>(): Result<U, E>
      requires Failure?
    {
      Failure(error)
    }

    function Extract(): R
      requires Success?
    {
      value
    }
  }
}

=== FILE: store.dfy ===
/** `Movie.objects.bulk_create(movies, ignore_conflicts=True)` on the stored movies: each
    record, in order, is inserted unless a record with its (title, year) is already there,
    in which case it is skipped. No validation runs. */
module MovieStore {
  import opened Movies

  /** The (title, year) keys of a batch. */
  function KeysOf(ms: seq<Movie>): (ks: set<Key>)
    ensures forall i :: 0 <= i < |ms| ==> KeyOf(ms[i]) in ks
    ensures forall k :: k in ks ==> exists i :: 0 <= i < |ms| && KeyOf(ms[i]) == k
    decreases |ms|
  {
    if |ms| == 0 then {}
    else
      var rest := KeysOf(ms[1..]);
      assert forall i :: 1 <= i < |ms| ==> ms[i] == ms[1..][i - 1];
      {KeyOf(ms[0])} + rest
  }

  /** Insert-or-skip of the batch `ms`, front to back. */
  function InsertOrSkip(s: Store, ms: seq<Movie>): (r: Store)
    ensures forall k :: k in s ==> k in r && r[k] == s[k]
    decreases |ms|
  {
    if |ms| == 0 then s
    else
      var m := ms[0];
      InsertOrSkip(if KeyOf(m) in s then s else s[KeyOf(m) := m], ms[1..])
  }

  /** Afterwards the stored keys are the old ones plus those of the batch. */
  lemma {:induction false} InsertOrSkipKeys(s: Store, ms: seq<Movie>)
    ensures InsertOrSkip(s, ms).Keys == s.Keys + KeysOf(ms)
    decreases |ms|
  {
    if |ms| > 0 {
      var m := ms[0];
      var s' := if KeyOf(m) in s then s else s[KeyOf(m) := m];
      InsertOrSkipKeys(s', ms[1..]);
      assert s'.Keys == s.Keys + {KeyOf(m)};
      assert KeysOf(ms) == {KeyOf(m)} + KeysOf(ms[1..]);
    }
  }

  /** A newly stored key holds the first record of the batch that carries it. */
  lemma {:induction false} InsertOrSkipFirstWins(s: Store, ms: seq<Movie>)
    ensures forall i :: 0 <= i < |ms| && KeyOf(ms[i]) !in s && FirstWithKey(ms, i) ==>
      KeyOf(ms[i]) in InsertOrSkip(s, ms) && InsertOrSkip(s, ms)[KeyOf(ms[i])] == ms[i]
    decreases |ms|
  {
    if |ms| > 0 {
      var m := ms[0];
      var s' := if KeyOf(m) in s then s else s[KeyOf(m) := m];
      InsertOrSkipFirstWins(s', ms[1..]);
      forall i | 0 <= i < |ms| && KeyOf(ms[i]) !in s && FirstWithKey(ms, i)
        ensures KeyOf(ms[i]) in InsertOrSkip(s, ms) && InsertOrSkip(s, ms)[KeyOf(ms[i])] == ms[i]
      {
        if i > 0 {
          assert ms[i] == ms[1..][i - 1];
          assert KeyOf(ms[i]) != KeyOf(m) by { assert !(KeyOf(ms[0]) == KeyOf(ms[i])); }
          assert FirstWithKey(ms[1..], i - 1) by {
            forall j | 0 <= j < i - 1 ensures KeyOf(ms[1..][j]) != KeyOf(ms[1..][i - 1]) {
              assert ms[1..][j] == ms[j + 1];
            }
          }
        }
      }
    }
  }

  /** No record before position `i` of the batch has the key of record `i`. */
  predicate FirstWithKey(ms: seq<Movie>, i: nat)
    requires i < |ms|
  {
    forall j :: 0 <= j < i ==> KeyOf(ms[j]) != KeyOf(ms[i])
  }

  /** Records stay filed under their own key. */
  lemma {:induction false} InsertOrSkipConsistent(s: Store, ms: seq<Movie>)
    requires Consistent(s)
    ensures Consistent(InsertOrSkip(s, ms))
    decreases |ms|
  {
    if |ms| > 0 {
      var m := ms[0];
      var s' := if KeyOf(m) in s then s else s[KeyOf(m) := m];
      assert Consistent(s');
      InsertOrSkipConsistent(s', ms[1..]);
    }
  }

  /** A batch whose keys are all stored already changes nothing. */
  lemma {:induction false} InsertOrSkipOfStoredKeys(s: Store, ms: seq<Movie>)
    requires KeysOf(ms) <= s.Keys
    ensures InsertOrSkip(s, ms) == s
    decreases |ms|
  {
    if |ms| > 0 {
      assert KeyOf(ms[0]) in s;
      assert KeysOf(ms[1..]) <= s.Keys by {
        forall k | k in KeysOf(ms[1..]) ensures k in s.Keys {
          var i :| 0 <= i < |ms[1..]| && KeyOf(ms[1..][i]) == k;
          assert ms[1..][i] == ms[i + 1];
        }
      }
      InsertOrSkipOfStoredKeys(s, ms[1..]);
    }
  }

  /** Inserting the same batch twice stores what inserting it once does. */
  lemma InsertOrSkipIdempotent(s: Store, ms: seq<Movie>)
    ensures InsertOrSkip(InsertOrSkip(s, ms), ms) == InsertOrSkip(s, ms)
  {
    InsertOrSkipKeys(s, ms);
    InsertOrSkipOfStoredKeys(InsertOrSkip(s, ms), ms);
  }

  /** The store grows by exactly the number of batch keys it did not hold. */
  lemma InsertOrSkipGrowth(s: Store, ms: seq<Movie>)
    ensures |InsertOrSkip(s, ms)| == |s| + |KeysOf(ms) - s.Keys|
    ensures |InsertOrSkip(s, ms)| <= |s| + |ms|
  {
    var r := InsertOrSkip(s, ms);
    InsertOrSkipKeys(s, ms);
    assert r.Keys == s.Keys + (KeysOf(ms) - s.Keys);
    assert |r.Keys| == |s.Keys| + |KeysOf(ms) - s.Keys|;
    KeysOfSize(ms);
  }

  /** A batch has at most as many keys as records. */
  lemma {:induction false} KeysOfSize(ms: seq<Movie>)
    ensures |KeysOf(ms)| <= |ms|
    decreases |ms|
  {
    if |ms| > 0 {
      KeysOfSize(ms[1..]);
    }
  }
}

=== FILE: utils.dfy ===
/** `handle_uploaded_file` of movies/utils.py: the reader chosen by the name's suffix and a
    check for the three required column names, spelled exactly. */
module UploadUtils {
  import opened Results
  import opened PyText
  import opened Cells

  /** The required names, in the order the missing ones are reported. */
  const RequiredNames: seq<string> := ["title", "year", "rating"]

  /** What leaves the function: its own `ValueError`s, or the reader's exception, re-raised. */
  datatype UtilsError = Unsupported | ReaderFailed(raised: Parse) | ColumnsMissing(names: seq<string>)

  /** The names of `names` that are not among the columns, in their order. */
  function MissingNames(names: seq<string>, columns: seq<string>): (r: seq<string>)
    ensures |r| <= |names|
    ensures forall x :: x in r <==> x in names && x !in columns
    decreases |names|
  {
    if |names| == 0 then []
    else
      var rest := MissingNames(names[1..], columns);
      assert forall x :: x in names <==> x == names[0] || x in names[1..] by {
        assert names == [names[0]] + names[1..];
      }
      if names[0] in columns then rest else [names[0]] + rest
  }

  /** Entries `i` and `j` of `r` occur in `names` in that order. */
  predicate InOrderAt(r: seq<string>, names: seq<string>, i: nat, j: nat)
    requires i < j < |r|
  {
    exists a, b :: 0 <= a < b < |names| && names[a] == r[i] && names[b] == r[j]
  }

  /** Any two entries of `r` occur in `names` in the same order. */
  predicate OrderedWithin(r: seq<string>, names: seq<string>) {
    forall i: nat, j: nat :: i < j < |r| ==> InOrderAt(r, names, i, j)
  }

  /** An order within the tail of `names` is an order within `names`. */
  lemma OrderedWithinTail(r: seq<string>, names: seq<string>)
    requires |names| > 0 && OrderedWithin(r, names[1..])
    ensures OrderedWithin(r, names)
  {
    forall i: nat, j: nat | i < j < |r|
      ensures InOrderAt(r, names, i, j)
    {
      assert InOrderAt(r, names[1..], i, j);
      var a, b :| 0 <= a < b < |names[1..]| && names[1..][a] == r[i] && names[1..][b] == r[j];
      assert names[a + 1] == r[i] && names[b + 1] == r[j];
    }
  }

  /** Putting the head of `names` in front of an order within its tail keeps an order. */
  lemma OrderedWithinCons(r: seq<string>, names: seq<string>)
    requires |names| > 0 && OrderedWithin(r, names[1..])
    requires forall x :: x in r ==> x in names[1..]
    ensures OrderedWithin([names[0]] + r, names)
  {
    var r' := [names[0]] + r;
    forall i: nat, j: nat | i < j < |r'|
      ensures InOrderAt(r', names, i, j)
    {
      if i == 0 {
        assert r'[j] == r[j - 1] && r[j - 1] in names[1..];
        var b :| 0 <= b < |names[1..]| && names[1..][b] == r[j - 1];
        assert names[0] == r'[0] && names[b + 1] == r'[j];
      } else {
        assert r'[i] == r[i - 1] && r'[j] == r[j - 1];
        assert InOrderAt(r, names[1..], i - 1, j - 1);
        var a, b :| 0 <= a < b < |names[1..]| && names[1..][a] == r[i - 1] && names[1..][b] == r[j - 1];
        assert names[a + 1] == r'[i] && names[b + 1] == r'[j];
      }
    }
  }

  /** The filter keeps the relative order of the names it keeps. */
  lemma {:induction false} MissingNamesKeepOrder(names: seq<string>, columns: seq<string>)
    ensures OrderedWithin(MissingNames(names, columns), names)
    decreases |names|
  {
    if |names| > 0 {
      var rest := MissingNames(names[1..], columns);
      MissingNamesKeepOrder(names[1..], columns);
      if names[0] in columns {
        OrderedWithinTail(rest, names);
      } else {
        OrderedWithinCons(rest, names);
      }
    }
  }

  /** `handle_uploaded_file`: a `.csv` name is read as CSV, a `.xls`/`.xlsx` name as Excel,
      anything else is unsupported; a table lacking any required name is rejected with the
      missing ones, and any other table is returned as read. */
  function HandleUploadedFile(name: string, csv: Parse, excel: Parse): (r: Result<Table, UtilsError>)
    ensures !EndsWith(name, ".csv") && !EndsWith(name, ".xls") && !EndsWith(name, ".xlsx") ==> r == Failure(Unsupported)
    ensures r.Success? ==>
      || (EndsWith(name, ".csv") && csv == Parsed(r.value))
      || (!EndsWith(name, ".csv") && excel == Parsed(r.value))
    ensures r.Success? ==> forall n :: n in RequiredNames ==> n in r.value.columns
    ensures r.Failure? && r.error.ColumnsMissing? ==>
      && TableRead(name, csv, excel).Parsed?
      && r.error.names == MissingNames(RequiredNames, TableRead(name, csv, excel).table.columns)
      && r.error.names != []
  {
    var read :- if EndsWith(name, ".csv") then Success(csv)
                else if EndsWith(name, ".xls") || EndsWith(name, ".xlsx") then Success(excel)
                else Failure(Unsupported);
    match read
    case Parsed(t) =>
      var missing := MissingNames(RequiredNames, t.columns);
      if |missing| > 0 then Failure(ColumnsMissing(missing)) else Success(t)
    case _ => Failure(ReaderFailed(read))
  }

  /** The reader outcome the name selects (the Excel one for an unsupported name, which is
      never read). */
  function TableRead(name: string, csv: Parse, excel: Parse): Parse {
    if EndsWith(name, ".csv") then csv else excel
  }

  /** The check fails exactly when one of the three names is not a column, spelled as is. */
  lemma HandleUploadedFileAccepts(name: string, csv: Parse, excel: Parse)
    requires EndsWith(name, ".csv") || EndsWith(name, ".xls") || EndsWith(name, ".xlsx")
    requires TableRead(name, csv, excel).Parsed?
    ensures HandleUploadedFile(name, csv, excel).Success? <==>
      forall n :: n in RequiredNames ==> n in TableRead(name, csv, excel).table.columns
    ensures HandleUploadedFile(name, csv, excel).Success? ==>
      HandleUploadedFile(name, csv, excel).value == TableRead(name, csv, excel).table
  {
  }

  /** A reader exception reaches the caller unchanged. */
  lemma ReaderFailureIsReraised(name: string, csv: Parse, excel: Parse)
    requires EndsWith(name, ".csv") || EndsWith(name, ".xls") || EndsWith(name, ".xlsx")
    requires !TableRead(name, csv, excel).Parsed?
    ensures HandleUploadedFile(name, csv, excel) == Failure(ReaderFailed(TableRead(name, csv, excel)))
  {
  }

  /** Missing names are reported in declared order: with only "Title" (capitalised) and
      "rating" present, the report is exactly ["title", "year"]. */
  lemma MissingNamesInOrder()
    ensures MissingNames(RequiredNames, ["Title", "rating"]) == ["title", "year"]
  {
    assert "Title" != "title";
    assert "title" !in ["Title", "rating"];
    assert "year" !in ["Title", "rating"];
    assert "rating" in ["Title", "rating"];
  }
}

=== FILE: views.dfy ===
/** The upload view `upload_file` of movies/views.py: form check, table check, reading the
    file, header normalisation, the required-column check, the per-row coercion and
    validation loop, and the insert-or-skip of the accepted records. */
module UploadView {
  import opened Results
  import opened PyText
  import opened Cells
  import opened Partitions
  import opened Movies
  import opened MovieStore
  import UploadForm

  const RequiredColumns: set<string> := {"title", "year", "rating"}
  /** The first spreadsheet row holding data is row 2: the header is row 1. */
  const FirstDataRow: int := 2

  /** Why a row was set aside. `Ambiguous` is the error pandas raises when `pd.notna` of a
      repeated column, a Series, is used as a condition. */
  datatype RowError =
    | Unconvertible(field: string) | Ambiguous
    | MissingTitle | MissingYear | YearOutOfRange | RatingOutOfRange

  /** The `movie_data` dictionary built from one row. */
  datatype RowData = RowData(
    title: Option<string>, year: Option<int>, rating: real, genre: string, director: string,
    runtime: int, votes: int, revenue: real, metascore: int)

  datatype ReadProblem = ParseFailed | NoData

  /** Why a run stopped without storing anything. */
  datatype RunError =
    | TableMissing | TempFileFailed | ReadFailed(problem: ReadProblem)
    | ColumnsMissing(names: set<string>) | NoValidRows | DatabaseFault

  /** What the view ends with: the empty form (a GET), the form with its error, an error
      message, or a success message with the count it reports and the skipped rows. */
  datatype Outcome =
    | FormShown
    | FormRejected(code: UploadForm.FormError)
    | Failed(error: RunError)
    | Imported(reported: nat, skipped: seq<(int, RowError)>)

  /** One request with the outcomes of the I/O it triggers: whether the `movies_movie` table
      exists, whether saving the temporary copy fails, what the CSV reader, the Excel reader
      with the extension's engine and the Excel reader with any engine produce, and whether
      the database fails during the insert. */
  datatype Request = Request(
    isPost: bool, file: Option<UploadForm.UploadedFile>, tableExists: bool, tempSaveFails: bool,
    csv: Parse, excel: Parse, excelAnyEngine: Parse, dbFault: bool)

  // ---------------------------------------------------------------- headers

  /** `str.strip().lower()` on a header. */
  function NormalizeHeader(h: string): (r: string)
    ensures |r| <= |h|
  {
    Lower(Strip(h))
  }

  function NormalizeColumns(t: Table): (r: Table)
    ensures r.rows == t.rows && |r.columns| == |t.columns|
    ensures forall i :: 0 <= i < |t.columns| ==> r.columns[i] == NormalizeHeader(t.columns[i])
  {
    RenameColumns(t, NormalizeHeader)
  }

  /** `required_columns - set(df.columns.str.lower())`. */
  function MissingColumns(columns: seq<string>): (m: set<string>)
    ensures m <= RequiredColumns
    ensures forall c :: c in RequiredColumns ==> (c in m <==> forall i :: 0 <= i < |columns| ==> Lower(columns[i]) != c)
  {
    var present := set i | 0 <= i < |columns| :: Lower(columns[i]);
    assert forall i :: 0 <= i < |columns| ==> Lower(columns[i]) in present;
    RequiredColumns - present
  }

  // ---------------------------------------------------------------- one row

  /** `s` cut to its first 255 characters by `[:255]`. */
  predicate IsCutOf(t: string, s: string) {
    |t| <= LongTextMaxLength && |t| <= |s| && t == s[..|t|] && (|s| <= LongTextMaxLength ==> t == s)
    && (|s| > LongTextMaxLength ==> |t| == LongTextMaxLength)
  }

  /** `str(value).strip()[:255]`. */
  function Cut(c: Cell): (r: string)
    ensures IsCutOf(r, Strip(PyStr(c)))
  {
    Take(Strip(PyStr(c)), LongTextMaxLength)
  }

  /** `int(value) if pd.notna(value) else default`, failing where `int()` raises. */
  function IntOr(c: Cell, default: int, field: string): (r: Result<int, RowError>)
    ensures NotNA(c) ==> (r.Success? <==> ToInt(c).Some?)
    ensures r.Success? ==> r.value == (if NotNA(c) then ToInt(c).value else default)
    ensures r.Failure? ==> r.error == Unconvertible(field)
  {
    if !NotNA(c) then Success(default)
    else match ToInt(c)
      case Some(i) => Success(i)
      case None => Failure(Unconvertible(field))
  }

  /** `float(value) if pd.notna(value) else default`, failing where `float()` raises. */
  function RealOr(c: Cell, default: real, field: string): (r: Result<real, RowError>)
    ensures NotNA(c) ==> (r.Success? <==> ToReal(c).Some?)
    ensures r.Success? ==> r.value == (if NotNA(c) then ToReal(c).value else default)
    ensures r.Failure? ==> r.error == Unconvertible(field)
  {
    if !NotNA(c) then Success(default)
    else match ToReal(c)
      case Some(x) => Success(x)
      case None => Failure(Unconvertible(field))
  }

  /** The names the dictionary literal reads, in its order. */
  const EntryNames: seq<string> := ["title", "year", "rating", "genre", "director", "runtime", "votes", "revenue", "metascore"]

  /** The cells of one row under the names the loop reads (`row.get(name)`), and which of
      those names the header repeats. */
  datatype RowCells = RowCells(
    title: Cell, year: Cell, rating: Cell, genre: Cell, director: Cell,
    runtime: Cell, votes: Cell, revenue: Cell, metascore: Cell, repeated: set<string>)

  function CellsOf(columns: seq<string>, row: seq<Cell>): (rc: RowCells)
    ensures forall name :: name in rc.repeated <==> name in EntryNames && Repeated(columns, name)
  {
    RowCells(
      Value(columns, row, "title"), Value(columns, row, "year"), Value(columns, row, "rating"),
      Value(columns, row, "genre"), Value(columns, row, "director"), Value(columns, row, "runtime"),
      Value(columns, row, "votes"), Value(columns, row, "revenue"), Value(columns, row, "metascore"),
      set name | name in EntryNames && Repeated(columns, name))
  }

  /** The condition `pd.notna(row.get(name))`. For a repeated name it is a Series, and using
      it as a condition raises. */
  function NotNAOf(rc: RowCells, name: string, c: Cell): (r: Result<bool, RowError>)
    ensures r.Success? <==> name !in rc.repeated
    ensures r.Success? ==> r.value == NotNA(c)
    ensures r.Failure? ==> r.error == Ambiguous
  {
    if name in rc.repeated then Failure(Ambiguous) else Success(NotNA(c))
  }

  /** `int()` accepts the cell, or it is missing and takes its default. */
  predicate IntConverts(c: Cell) {
    !NotNA(c) || ToInt(c).Some?
  }

  /** `float()` accepts the cell, or it is missing and takes its default. */
  predicate RealConverts(c: Cell) {
    !NotNA(c) || ToReal(c).Some?
  }

  /** Entry `i` of the dictionary evaluates without raising: its column is not repeated
      and, for a numeric entry, the conversion accepts the cell or it is missing. Rating
      and revenue go through `float()`, the other numbers through `int()`, and the text
      entries cannot fail otherwise. */
  predicate Reads(rc: RowCells, i: nat)
    requires i < |EntryNames|
  {
    && EntryNames[i] !in rc.repeated
    && match i
       case 1 => IntConverts(rc.year)
       case 2 => RealConverts(rc.rating)
       case 5 => IntConverts(rc.runtime)
       case 6 => IntConverts(rc.votes)
       case 7 => RealConverts(rc.revenue)
       case 8 => IntConverts(rc.metascore)
       case _ => true
  }

  /** What the entry for `name` raises when it does not read: the ambiguity error for a
      repeated column, otherwise the failed conversion. */
  function EntryError(rc: RowCells, name: string): RowError {
    if name in rc.repeated then Ambiguous else Unconvertible(name)
  }

  /** The entries before position `i` all read. */
  predicate ReadsBefore(rc: RowCells, i: nat)
    requires i <= |EntryNames|
  {
    forall j :: 0 <= j < i ==> Reads(rc, j)
  }

  /** `e` is the error of the first entry that raises. */
  predicate FirstFailingEntry(rc: RowCells, e: RowError) {
    exists i :: 0 <= i < |EntryNames| && e == EntryError(rc, EntryNames[i]) && !Reads(rc, i) && ReadsBefore(rc, i)
  }

  /** A text field read with `str().strip()[:255]`, or `default` when missing. */
  predicate TextFrom(t: string, c: Cell, default: string) {
    if NotNA(c) then IsCutOf(t, Strip(PyStr(c))) else t == default
  }

  /** A numeric field read with `int()`, or `default` when missing. */
  predicate IntFrom(x: int, c: Cell, default: int) {
    if NotNA(c) then ToInt(c) == Some(x) else x == default
  }

  /** A numeric field read with `float()`, or `default` when missing. */
  predicate RealFrom(x: real, c: Cell, default: real) {
    if NotNA(c) then ToReal(c) == Some(x) else x == default
  }

  /** The `[:255]` cuts bound the three text entries. */
  predicate TextsFit(d: RowData) {
    && (d.title.Some? ==> |d.title.value| <= LongTextMaxLength)
    && |d.genre| <= LongTextMaxLength
    && |d.director| <= LongTextMaxLength
  }

  /** A text entry, `str(row.get(name)).strip()[:255] if pd.notna(row.get(name)) else ''`. */
  function TextEntry(rc: RowCells, name: string, c: Cell): (r: Result<string, RowError>)
    ensures r.Success? <==> name !in rc.repeated
    ensures r.Success? ==> TextFrom(r.value, c, "")
    ensures r.Failure? ==> r.error == Ambiguous
  {
    var present :- NotNAOf(rc, name, c);
    Success(if present then Cut(c) else "")
  }

  /** The title entry; a missing title is None rather than empty. */
  function TitleEntry(rc: RowCells): (r: Result<Option<string>, RowError>)
    ensures r.Success? <==> "title" !in rc.repeated
    ensures r.Success? ==> (r.value.None? <==> !NotNA(rc.title))
    ensures r.Success? && r.value.Some? ==> TextFrom(r.value.value, rc.title, "")
    ensures r.Failure? ==> r.error == Ambiguous
  {
    var present :- NotNAOf(rc, "title", rc.title);
    Success(if present then Some(Cut(rc.title)) else None)
  }

  /** The year entry, `int(row['year']) if pd.notna(row.get('year')) else None`. */
  function YearEntry(rc: RowCells): (r: Result<Option<int>, RowError>)
    ensures r.Success? <==> "year" !in rc.repeated && IntConverts(rc.year)
    ensures r.Success? ==> (r.value.None? <==> !NotNA(rc.year))
    ensures r.Success? && r.value.Some? ==> IntFrom(r.value.value, rc.year, 0)
    ensures r.Failure? ==> r.error == EntryError(rc, "year")
  {
    var present :- NotNAOf(rc, "year", rc.year);
    if !present then Success(None)
    else
      var y :- IntOr(rc.year, 0, "year");
      Success(Some(y))
  }

  /** An `int()` entry with default 0. */
  function IntEntry(rc: RowCells, name: string, c: Cell): (r: Result<int, RowError>)
    ensures r.Success? <==> name !in rc.repeated && IntConverts(c)
    ensures r.Success? ==> IntFrom(r.value, c, 0)
    ensures r.Failure? ==> r.error == EntryError(rc, name)
  {
    var _ :- NotNAOf(rc, name, c);
    IntOr(c, 0, name)
  }

  /** A `float()` entry with default 0.0. */
  function RealEntry(rc: RowCells, name: string, c: Cell): (r: Result<real, RowError>)
    ensures r.Success? <==> name !in rc.repeated && RealConverts(c)
    ensures r.Success? ==> RealFrom(r.value, c, 0.0)
    ensures r.Failure? ==> r.error == EntryError(rc, name)
  {
    var _ :- NotNAOf(rc, name, c);
    RealOr(c, 0.0, name)
  }

  /** The `movie_data` dictionary of one row's cells: the nine entries of the literal, in
      order. The first entry that raises ends the row. */
  function BuildFromCells(rc: RowCells): (r: Result<RowData, RowError>)
    ensures r.Failure? ==> r.error.Unconvertible? || r.error.Ambiguous?
    ensures r.Success? ==> TextsFit(r.value)
  {
    var title :- TitleEntry(rc);
    var year :- YearEntry(rc);
    var rating :- RealEntry(rc, "rating", rc.rating);
    var genre :- TextEntry(rc, "genre", rc.genre);
    var director :- TextEntry(rc, "director", rc.director);
    var runtime :- IntEntry(rc, "runtime", rc.runtime);
    var votes :- IntEntry(rc, "votes", rc.votes);
    var revenue :- RealEntry(rc, "revenue", rc.revenue);
    var metascore :- IntEntry(rc, "metascore", rc.metascore);
    Success(RowData(title, year, rating, genre, director, runtime, votes, revenue, metascore))
  }

  /** When the entries before `i` read and entry `i` does not, the row fails with entry
      `i`'s error. */
  lemma BuildFailsAt(rc: RowCells, i: nat)
    requires i < |EntryNames| && ReadsBefore(rc, i) && !Reads(rc, i)
    ensures BuildFromCells(rc) == Failure(EntryError(rc, EntryNames[i]))
    ensures !ReadsBefore(rc, |EntryNames|) && FirstFailingEntry(rc, BuildFromCells(rc).error)
  {
    if i >= 1 { assert Reads(rc, 0); }
    if i >= 2 { assert Reads(rc, 1); }
    if i >= 3 { assert Reads(rc, 2); }
    if i >= 4 { assert Reads(rc, 3); }
    if i >= 5 { assert Reads(rc, 4); }
    if i >= 6 { assert Reads(rc, 5); }
    if i >= 7 { assert Reads(rc, 6); }
    if i >= 8 { assert Reads(rc, 7); }
  }

  /** When every entry reads, the dictionary is built. */
  lemma BuildSucceeds(rc: RowCells)
    requires ReadsBefore(rc, |EntryNames|)
    ensures BuildFromCells(rc).Success?
  {
    assert Reads(rc, 0) && Reads(rc, 1) && Reads(rc, 2);
    assert Reads(rc, 3) && Reads(rc, 4) && Reads(rc, 5);
    assert Reads(rc, 6) && Reads(rc, 7) && Reads(rc, 8);
  }

  /** A row's dictionary is built exactly when every entry reads; otherwise the error is
      that of the first entry, in dictionary order, that raises. */
  lemma BuildOrder(rc: RowCells)
    ensures BuildFromCells(rc).Success? <==> ReadsBefore(rc, |EntryNames|)
    ensures BuildFromCells(rc).Failure? ==> FirstFailingEntry(rc, BuildFromCells(rc).error)
  {
    if !Reads(rc, 0) {
      BuildFailsAt(rc, 0);
    } else if !Reads(rc, 1) {
      BuildFailsAt(rc, 1);
    } else if !Reads(rc, 2) {
      BuildFailsAt(rc, 2);
    } else if !Reads(rc, 3) {
      BuildFailsAt(rc, 3);
    } else if !Reads(rc, 4) {
      BuildFailsAt(rc, 4);
    } else if !Reads(rc, 5) {
      BuildFailsAt(rc, 5);
    } else if !Reads(rc, 6) {
      BuildFailsAt(rc, 6);
    } else if !Reads(rc, 7) {
      BuildFailsAt(rc, 7);
    } else if !Reads(rc, 8) {
      BuildFailsAt(rc, 8);
    } else {
      BuildSucceeds(rc);
    }
  }

  /** The `movie_data` dictionary of one row. */
  function BuildRecord(columns: seq<string>, row: seq<Cell>): Result<RowData, RowError> {
    BuildFromCells(CellsOf(columns, row))
  }

  /** A converted dictionary holds the cell values, with the defaults for missing cells:
      no title and no year, rating 0.0, empty genre and director, zero counts. */
  lemma BuildRecordDefaults(rc: RowCells)
    requires BuildFromCells(rc).Success?
    ensures var d := BuildFromCells(rc).value;
      && (d.title.None? <==> !NotNA(rc.title))
      && (d.title.Some? ==> TextFrom(d.title.value, rc.title, ""))
      && (d.year.None? <==> !NotNA(rc.year))
      && (d.year.Some? ==> IntFrom(d.year.value, rc.year, 0))
      && RealFrom(d.rating, rc.rating, 0.0)
      && TextFrom(d.genre, rc.genre, "")
      && TextFrom(d.director, rc.director, "")
      && IntFrom(d.runtime, rc.runtime, 0)
      && IntFrom(d.votes, rc.votes, 0)
      && RealFrom(d.revenue, rc.revenue, 0.0)
      && IntFrom(d.metascore, rc.metascore, 0)
  {
    assert TitleEntry(rc).Success? && YearEntry(rc).Success? && RealEntry(rc, "rating", rc.rating).Success?;
    assert TextEntry(rc, "genre", rc.genre).Success? && TextEntry(rc, "director", rc.director).Success?;
    assert IntEntry(rc, "runtime", rc.runtime).Success? && IntEntry(rc, "votes", rc.votes).Success?;
    assert RealEntry(rc, "revenue", rc.revenue).Success? && IntEntry(rc, "metascore", rc.metascore).Success?;
    assert BuildFromCells(rc).value == RowData(TitleEntry(rc).value, YearEntry(rc).value,
      RealEntry(rc, "rating", rc.rating).value, TextEntry(rc, "genre", rc.genre).value,
      TextEntry(rc, "director", rc.director).value, IntEntry(rc, "runtime", rc.runtime).value,
      IntEntry(rc, "votes", rc.votes).value, RealEntry(rc, "revenue", rc.revenue).value,
      IntEntry(rc, "metascore", rc.metascore).value);
  }

  /** A dictionary passes the four checks of the loop. */
  predicate ValidRow(d: RowData) {
    && d.title.Some? && d.title.value != ""
    && d.year.Some? && MinYear <= d.year.value <= MaxYear
    && 0.0 <= d.rating <= MaxRating
  }

  /** The checks of the loop, in order; the first that fails is the row's error. */
  function Validate(d: RowData): (r: Result<RowData, RowError>)
    ensures r.Success? <==> ValidRow(d)
    ensures r.Success? ==> r.value == d
    ensures r == Failure(MissingTitle) <==> d.title.None? || d.title.value == ""
    ensures r == Failure(MissingYear) <==> d.title.Some? && d.title.value != "" && d.year.None?
    ensures r == Failure(YearOutOfRange) <==>
      d.title.Some? && d.title.value != "" && d.year.Some? && !(MinYear <= d.year.value <= MaxYear)
    ensures r == Failure(RatingOutOfRange) <==>
      d.title.Some? && d.title.value != "" && d.year.Some? && MinYear <= d.year.value <= MaxYear && !(0.0 <= d.rating <= MaxRating)
  {
    if d.title.None? || d.title.value == "" then Failure(MissingTitle)
    else if d.year.None? then Failure(MissingYear)
    else if !(MinYear <= d.year.value <= MaxYear) then Failure(YearOutOfRange)
    else if !(0.0 <= d.rating <= MaxRating) then Failure(RatingOutOfRange)
    else Success(d)
  }

  /** `Movie(**movie_data)`: the dictionary's fields, the model defaults for the rest. */
  function MovieOf(d: RowData): (m: Movie)
    requires ValidRow(d)
    ensures KeyOf(m) == (d.title.value, d.year.value)
    ensures m.rating == d.rating && m.genre == Some(d.genre) && m.director == Some(d.director)
    ensures m.runtime == Some(d.runtime) && m.votes == d.votes && m.revenue == Some(d.revenue) && m.metascore == Some(d.metascore)
    ensures m.actors == NewMovie(m.title, m.year).actors && m.description == NewMovie(m.title, m.year).description
    ensures m.country == NewMovie(m.title, m.year).country && m.language == NewMovie(m.title, m.year).language
  {
    Movie(d.title.value, Some(d.genre), Some(d.director), d.year.value, Some(d.runtime), d.rating, d.votes,
      Some(""), Some(d.revenue), Some(d.metascore), Some(""), Some(""), Some(""))
  }

  /** What the loop guarantees of a record it keeps. */
  predicate RowMovieBounds(m: Movie) {
    && 0 < |m.title| <= LongTextMaxLength
    && MinYear <= m.year <= MaxYear
    && 0.0 <= m.rating <= MaxRating
    && m.genre.Some? && |m.genre.value| <= LongTextMaxLength
    && m.director.Some? && |m.director.value| <= LongTextMaxLength
  }

  /** One pass of the loop body: the record to create, or the error of the row. */
  function ProcessRow(columns: seq<string>, row: seq<Cell>): (r: Result<Movie, RowError>)
    ensures r.Success? ==> RowMovieBounds(r.value)
  {
    var d :- BuildRecord(columns, row);
    var v :- Validate(d);
    Success(MovieOf(v))
  }

  /** A row is accepted exactly when it converts and passes the checks; otherwise its error
      is the first failing conversion or, failing that, the first failing check. */
  lemma ProcessRowOutcome(columns: seq<string>, row: seq<Cell>)
    ensures ProcessRow(columns, row).Success? <==>
      BuildRecord(columns, row).Success? && ValidRow(BuildRecord(columns, row).value)
    ensures BuildRecord(columns, row).Failure? ==>
      ProcessRow(columns, row) == Failure(BuildRecord(columns, row).error)
      && FirstFailingEntry(CellsOf(columns, row), ProcessRow(columns, row).error)
    ensures BuildRecord(columns, row).Success? && ProcessRow(columns, row).Failure? ==>
      ProcessRow(columns, row) == Failure(Validate(BuildRecord(columns, row).value).error)
  {
    BuildOrder(CellsOf(columns, row));
  }

  // ---------------------------------------------------------------- all rows

  /** The outcome of every row, in order. */
  function Outcomes(t: Table): (os: seq<Result<Movie, RowError>>)
    ensures |os| == |t.rows|
    decreases |t.rows|
  {
    if |t.rows| == 0 then []
    else [ProcessRow(t.columns, t.rows[0])] + Outcomes(t.(rows := t.rows[1..]))
  }

  /** The outcome at position `i` is that of row `i`. */
  lemma {:induction false} OutcomeAt(t: Table, i: nat)
    requires i < |t.rows|
    ensures Outcomes(t)[i] == ProcessRow(t.columns, t.rows[i])
    decreases |t.rows|
  {
    if i > 0 {
      OutcomeAt(t.(rows := t.rows[1..]), i - 1);
    }
  }

  /** The loop: the records to create and the `(index + 2, reason)` of every other row. */
  function ProcessRows(t: Table): (p: (seq<Movie>, seq<(int, RowError)>))
    ensures |p.0| + |p.1| == |t.rows|
  {
    Split(Outcomes(t), FirstDataRow)
  }

  /** Every error entry names a failing row, numbered from 2, and its reason. */
  lemma ProcessRowsErrorsSound(t: Table)
    ensures forall k :: 0 <= k < |ProcessRows(t).1| ==>
      FirstDataRow <= ProcessRows(t).1[k].0 < FirstDataRow + |t.rows|
      && Outcomes(t)[ProcessRows(t).1[k].0 - FirstDataRow] == Failure(ProcessRows(t).1[k].1)
  {
    FailuresAtPositions(Outcomes(t), ProcessRows(t).1, |t.rows|);
  }

  /** `SplitFailuresSound` for the outcomes of a table with `n` rows. */
  lemma FailuresAtPositions(os: seq<Result<Movie, RowError>>, errs: seq<(int, RowError)>, n: nat)
    requires |os| == n && errs == Failures(os, FirstDataRow)
    ensures forall k :: 0 <= k < |errs| ==>
      FirstDataRow <= errs[k].0 < FirstDataRow + n && os[errs[k].0 - FirstDataRow] == Failure(errs[k].1)
  {
    SplitFailuresSound(os, FirstDataRow);
  }

  /** Every failing row has its `(index + 2, reason)` entry: a bad row never stops the
      rows after it. */
  lemma ProcessRowsErrorsComplete(t: Table)
    ensures forall i :: 0 <= i < |t.rows| && Outcomes(t)[i].Failure? ==>
      (i + FirstDataRow, Outcomes(t)[i].error) in ProcessRows(t).1
  {
    FailuresListed(Outcomes(t), ProcessRows(t).1, |t.rows|);
  }

  /** `SplitFailuresComplete` for the outcomes of a table with `n` rows. */
  lemma FailuresListed(os: seq<Result<Movie, RowError>>, errs: seq<(int, RowError)>, n: nat)
    requires |os| == n && errs == Failures(os, FirstDataRow)
    ensures forall i :: 0 <= i < n && os[i].Failure? ==> (i + FirstDataRow, os[i].error) in errs
  {
    SplitFailuresComplete(os, FirstDataRow);
  }

  /** The error entries are in row order. */
  lemma ProcessRowsErrorsOrdered(t: Table)
    ensures forall j, k :: 0 <= j < k < |ProcessRows(t).1| ==> ProcessRows(t).1[j].0 < ProcessRows(t).1[k].0
  {
    var os := Outcomes(t);
    assert ProcessRows(t).1 == Failures(os, FirstDataRow);
    SplitFailuresOrdered(os, FirstDataRow);
  }

  /** The kept records are those of the accepted rows, in row order: the k-th kept record
      is the record of the k-th accepted row. */
  lemma ProcessRowsKept(t: Table)
    ensures var ix := SuccessPositions(Outcomes(t), FirstDataRow);
      && |ix| == |ProcessRows(t).0|
      && (forall k :: 0 <= k < |ix| ==>
            FirstDataRow <= ix[k] < FirstDataRow + |t.rows|
            && Outcomes(t)[ix[k] - FirstDataRow] == Success(ProcessRows(t).0[k]))
  {
    KeptAtPositions(Outcomes(t), ProcessRows(t).0, |t.rows|);
  }

  /** `SplitKeepsOrder` for the outcomes of a table with `n` rows. */
  lemma KeptAtPositions(os: seq<Result<Movie, RowError>>, kept: seq<Movie>, n: nat)
    requires |os| == n && kept == Kept(os, FirstDataRow)
    ensures var ix := SuccessPositions(os, FirstDataRow);
      && |ix| == |kept|
      && (forall k :: 0 <= k < |ix| ==> FirstDataRow <= ix[k] < FirstDataRow + n && os[ix[k] - FirstDataRow] == Success(kept[k]))
  {
    SplitKeepsOrder(os, FirstDataRow);
  }

  /** The accepted rows' positions increase, and every accepted row is among them. */
  lemma ProcessRowsKeptPositions(t: Table)
    ensures var ix := SuccessPositions(Outcomes(t), FirstDataRow);
      && (forall j, k :: 0 <= j < k < |ix| ==> ix[j] < ix[k])
      && (forall i :: 0 <= i < |t.rows| && Outcomes(t)[i].Success? ==> i + FirstDataRow in ix)
  {
    var os := Outcomes(t);
    SuccessPositionsOrdered(os, FirstDataRow);
    SuccessPositionsComplete(os, FirstDataRow);
  }

  /** An accepted row's record satisfies the loop's checks. */
  lemma OutcomeBounds(t: Table, i: nat)
    requires i < |t.rows|
    ensures Outcomes(t)[i].Success? ==> RowMovieBounds(Outcomes(t)[i].value)
  {
    OutcomeAt(t, i);
  }

  /** Every kept record satisfies the loop's checks. */
  lemma ProcessRowsKeptBounds(t: Table)
    ensures forall k :: 0 <= k < |ProcessRows(t).0| ==> RowMovieBounds(ProcessRows(t).0[k])
  {
    var os := Outcomes(t);
    var kept := ProcessRows(t).0;
    assert kept == Kept(os, FirstDataRow);
    SplitKeepsOrder(os, FirstDataRow);
    var ix := SuccessPositions(os, FirstDataRow);
    forall k | 0 <= k < |kept| ensures RowMovieBounds(kept[k]) {
      var i := ix[k] - FirstDataRow;
      OutcomeBounds(t, i);
      assert os[i] == Success(kept[k]);
    }
  }

  // ---------------------------------------------------------------- the run

  /** Reading the file: the CSV reader for ".csv", otherwise the Excel reader with the
      extension's engine and, should that fail, with any engine. Every failure, and an
      empty frame, becomes a read error; headers are normalised on success. */
  function ReadTable(req: Request, ext: string): (r: Result<Table, RunError>)
    ensures r.Failure? ==> r.error.ReadFailed?
    ensures r.Success? ==> !IsEmpty(r.value)
    ensures r.Success? && ext == ".csv" ==> req.csv.Parsed? && r.value == NormalizeColumns(req.csv.table)
    ensures ext != ".csv" && req.excel.Parsed? ==>
      (r.Success? <==> !IsEmpty(req.excel.table)) && (r.Success? ==> r.value == NormalizeColumns(req.excel.table))
    ensures ext != ".csv" && !req.excel.Parsed? ==>
      (r.Success? <==> req.excelAnyEngine.Parsed? && !IsEmpty(req.excelAnyEngine.table))
      && (r.Success? ==> r.value == NormalizeColumns(req.excelAnyEngine.table))
    ensures var raw := if ext == ".csv" then req.csv else if req.excel.Parsed? then req.excel else req.excelAnyEngine;
      && (r.Success? <==> raw.Parsed? && !IsEmpty(raw.table))
      && (r.Success? ==> r.value == NormalizeColumns(raw.table))
      && (r == Failure(ReadFailed(NoData)) <==> raw.Parsed? && IsEmpty(raw.table))
  {
    var raw := if ext == ".csv" then req.csv else if req.excel.Parsed? then req.excel else req.excelAnyEngine;
    if !raw.Parsed? then Failure(ReadFailed(ParseFailed))
    else if IsEmpty(raw.table) then Failure(ReadFailed(NoData))
    else Success(NormalizeColumns(raw.table))
  }

  /** Each reader is consulted only on its own branch: a CSV upload never reads the Excel
      readers, an Excel upload never reads the CSV reader, and the any-engine retry matters
      only after the extension's engine fails. */
  lemma ReadTableConsultsOnlyItsReader(req: Request, ext: string, other: Parse)
    ensures ext == ".csv" ==>
      ReadTable(req, ext) == ReadTable(req.(excel := other), ext) == ReadTable(req.(excelAnyEngine := other), ext)
    ensures ext != ".csv" ==> ReadTable(req, ext) == ReadTable(req.(csv := other), ext)
    ensures ext != ".csv" && req.excel.Parsed? ==> ReadTable(req, ext) == ReadTable(req.(excelAnyEngine := other), ext)
    ensures ext != ".csv" && !req.excel.Parsed? ==>
      ReadTable(req, ext) == ReadTable(req.(excel := req.excelAnyEngine), ext)
  {
  }

  /** From the normalised table on: the column check, the loop, the no-valid-rows check and
      the atomic insert-or-skip. The success message reports every record handed to the
      insert, whether or not it was new. */
  function ImportTable(t: Table, s: Store, dbFault: bool): (r: (Outcome, Store))
    ensures r.0.Failed? || r.0.Imported?
    ensures !r.0.Imported? ==> r.1 == s
    ensures r.0 == Failed(ColumnsMissing(MissingColumns(t.columns))) <==> MissingColumns(t.columns) != {}
    ensures MissingColumns(t.columns) == {} ==> (r.0 == Failed(NoValidRows) <==> |ProcessRows(t).0| == 0)
    ensures MissingColumns(t.columns) == {} && |ProcessRows(t).0| > 0 ==>
      (r.0.Imported? <==> !dbFault) && (r.0 == Failed(DatabaseFault) <==> dbFault)
    ensures r.0.Imported? ==>
      (r.1 == InsertOrSkip(s, ProcessRows(t).0) && r.0 == Imported(|ProcessRows(t).0|, ProcessRows(t).1) && r.0.reported > 0)
  {
    var missing := MissingColumns(t.columns);
    if missing != {} then (Failed(ColumnsMissing(missing)), s)
    else
      var (movies, errors) := ProcessRows(t);
      if |movies| == 0 then (Failed(NoValidRows), s)
      else if dbFault then (Failed(DatabaseFault), s)
      else (Imported(|movies|, errors), InsertOrSkip(s, movies))
  }

  /** `upload_file` on the stored movies `s`: the outcome and the stored movies after it. */
  function UploadFile(req: Request, s: Store): (r: (Outcome, Store))
    ensures !r.0.Imported? ==> r.1 == s
    ensures r.0.Imported? ==> forall k :: k in s ==> k in r.1 && r.1[k] == s[k]
    ensures r.0 == FormShown <==> !req.isPost
    ensures r.0.FormRejected? <==> req.isPost && UploadForm.IsValid(req.file).Failure?
    ensures req.isPost && UploadForm.IsValid(req.file).Success? && !req.tableExists ==> r.0 == Failed(TableMissing)
    ensures req.isPost && UploadForm.IsValid(req.file).Success? && req.tableExists ==>
      (r.0 == Failed(TempFileFailed) <==> req.tempSaveFails)
    ensures req.isPost && UploadForm.IsValid(req.file).Success? && req.tableExists && !req.tempSaveFails ==>
      var read := ReadTable(req, UploadForm.Extension(UploadForm.IsValid(req.file).value.name));
      && (read.Failure? ==> r == (Failed(read.error), s))
      && (read.Success? ==> r == ImportTable(read.value, s, req.dbFault))
  {
    if !req.isPost then (FormShown, s)
    else match UploadForm.IsValid(req.file)
      case Failure(e) => (FormRejected(e), s)
      case Success(f) =>
        if !req.tableExists then (Failed(TableMissing), s)
        else if req.tempSaveFails then (Failed(TempFileFailed), s)
        else match ReadTable(req, UploadForm.Extension(f.name))
          case Failure(e) => (Failed(e), s)
          case Success(t) => ImportTable(t, s, req.dbFault)
  }

  // ---------------------------------------------------------------- properties

  /** When a required column is missing the run fails whatever the rows hold. */
  lemma MissingColumnsIgnoreRows(t: Table, rows: seq<seq<Cell>>, s: Store, dbFault: bool)
    requires MissingColumns(t.columns) != {}
    ensures ImportTable(t, s, dbFault) == ImportTable(t.(rows := rows), s, dbFault)
    ensures ImportTable(t, s, dbFault) == (Failed(ColumnsMissing(MissingColumns(t.columns))), s)
  {
  }

  /** A normalised table is imported exactly when no required column is missing, at least
      one row passes the loop and the database does not fail. */
  lemma ImportedExactlyWhen(t: Table, s: Store, dbFault: bool)
    ensures ImportTable(t, s, dbFault).0.Imported? <==>
      MissingColumns(t.columns) == {} && |ProcessRows(t).0| > 0 && !dbFault
  {
  }

  /** A request ends in the success message exactly when it is a POST whose form is valid,
      the table exists, the temporary copy is saved, the file reads into a non-empty table
      holding the required columns with at least one acceptable row, and the database does
      not fail. */
  lemma UploadImportsExactlyWhen(req: Request, s: Store)
    ensures UploadFile(req, s).0.Imported? <==>
      && req.isPost && UploadForm.IsValid(req.file).Success? && req.tableExists && !req.tempSaveFails && !req.dbFault
      && var read := ReadTable(req, UploadForm.Extension(UploadForm.IsValid(req.file).value.name));
         read.Success? && MissingColumns(read.value.columns) == {} && |ProcessRows(read.value).0| > 0
  {
    if req.isPost && UploadForm.IsValid(req.file).Success? && req.tableExists && !req.tempSaveFails {
      var read := ReadTable(req, UploadForm.Extension(UploadForm.IsValid(req.file).value.name));
      if read.Success? {
        ImportedExactlyWhen(read.value, s, req.dbFault);
      }
    }
  }

  /** A row fails when the header repeats any name the dictionary reads: the entry for that
      name raises, unless an earlier entry raised first. A repeated title is always the
      row's error, since the title entry comes first. */
  lemma RepeatedNameRejectsRow(columns: seq<string>, row: seq<Cell>, name: string)
    requires name in EntryNames && Repeated(columns, name)
    ensures ProcessRow(columns, row).Failure?
    ensures ProcessRow(columns, row).error.Ambiguous? || ProcessRow(columns, row).error.Unconvertible?
    ensures name == "title" ==> ProcessRow(columns, row) == Failure(Ambiguous)
  {
    var rc := CellsOf(columns, row);
    var i :| 0 <= i < |EntryNames| && EntryNames[i] == name;
    assert name in rc.repeated;
    assert !Reads(rc, i);
    BuildOrder(rc);
    ProcessRowOutcome(columns, row);
  }

  /** With a repeated name the loop keeps no row, so the run stops with "no valid rows"
      and stores nothing, whatever the rows hold. */
  lemma RepeatedNameFailsRun(t: Table, s: Store, dbFault: bool, name: string)
    requires name in EntryNames && Repeated(t.columns, name) && MissingColumns(t.columns) == {}
    ensures ImportTable(t, s, dbFault) == (Failed(NoValidRows), s)
  {
    ProcessRowsKept(t);
    if |ProcessRows(t).0| > 0 {
      var i := SuccessPositions(Outcomes(t), FirstDataRow)[0] - FirstDataRow;
      OutcomeAt(t, i);
      RepeatedNameRejectsRow(t.columns, t.rows[i], name);
      assert false;
    }
  }

  /** Two headers that normalise to "title", such as "TITLE" and " Title " (see
      `UpperTitleIsTitle`, `PaddedTitleIsTitle`), make the run fail with "no valid rows"
      even though every required column is present. */
  lemma TitleHeadersCollide(raw: Table, s: Store, dbFault: bool, i: nat, j: nat)
    requires i < j < |raw.columns|
    requires NormalizeHeader(raw.columns[i]) == "title" && NormalizeHeader(raw.columns[j]) == "title"
    requires MissingColumns(NormalizeColumns(raw).columns) == {}
    ensures ImportTable(NormalizeColumns(raw), s, dbFault) == (Failed(NoValidRows), s)
  {
    var t := NormalizeColumns(raw);
    assert t.columns[i] == "title" && t.columns[j] == "title";
    RepeatedNameFailsRun(t, s, dbFault, "title");
  }

  /** A successful run stores the key of every kept record, leaves the records already
      stored alone and keeps the store filed by key. */
  lemma ImportStoresKeptRecords(t: Table, s: Store, dbFault: bool)
    requires ImportTable(t, s, dbFault).0.Imported?
    ensures var s' := ImportTable(t, s, dbFault).1;
      && s'.Keys == s.Keys + KeysOf(ProcessRows(t).0)
      && (forall k :: k in s ==> k in s' && s'[k] == s[k])
      && (Consistent(s) ==> Consistent(s'))
      && |s'| == |s| + |KeysOf(ProcessRows(t).0) - s.Keys|
  {
    InsertOrSkipKeys(s, ProcessRows(t).0);
    InsertOrSkipGrowth(s, ProcessRows(t).0);
    if Consistent(s) {
      InsertOrSkipConsistent(s, ProcessRows(t).0);
    }
  }

  /** A record is stored only if its row passed the loop's checks: every key the run adds
      belongs to a record with a title, a year in range and a rating in range. */
  lemma ImportAddsOnlyCheckedRecords(t: Table, s: Store, dbFault: bool)
    requires ImportTable(t, s, dbFault).0.Imported?
    ensures var s' := ImportTable(t, s, dbFault).1;
      forall k :: k in s' && k !in s ==> exists i :: 0 <= i < |ProcessRows(t).0| && s'[k] == ProcessRows(t).0[i] && RowMovieBounds(s'[k])
  {
    var ms := ProcessRows(t).0;
    var s' := ImportTable(t, s, dbFault).1;
    InsertedComeFromBatch(s, ms);
    ProcessRowsKeptBounds(t);
  }

  /** Every record insert-or-skip adds comes from the batch. */
  lemma {:induction false} InsertedComeFromBatch(s: Store, ms: seq<Movie>)
    ensures forall k :: k in InsertOrSkip(s, ms) && k !in s ==>
      exists i :: 0 <= i < |ms| && InsertOrSkip(s, ms)[k] == ms[i]
    decreases |ms|
  {
    if |ms| > 0 {
      var m := ms[0];
      var s1 := if KeyOf(m) in s then s else s[KeyOf(m) := m];
      InsertedComeFromBatch(s1, ms[1..]);
      forall k | k in InsertOrSkip(s, ms) && k !in s
        ensures exists i :: 0 <= i < |ms| && InsertOrSkip(s, ms)[k] == ms[i]
      {
        if k in s1 {
          assert s1[k] == m;
          assert InsertOrSkip(s, ms)[k] == ms[0];
        } else {
          var i :| 0 <= i < |ms[1..]| && InsertOrSkip(s1, ms[1..])[k] == ms[1..][i];
          assert ms[1..][i] == ms[i + 1];
        }
      }
    }
  }

  /** Uploading the same file again stores nothing new and reports the same message: the
      same count and the same skipped rows, though no record was inserted. */
  lemma ReuploadIsStable(req: Request, s: Store)
    requires UploadFile(req, s).0.Imported?
    ensures UploadFile(req, UploadFile(req, s).1) == (UploadFile(req, s).0, UploadFile(req, s).1)
  {
    var f := UploadForm.IsValid(req.file).value;
    var t := ReadTable(req, UploadForm.Extension(f.name)).value;
    InsertOrSkipIdempotent(s, ProcessRows(t).0);
  }

  /** Header normalisation drops the whitespace padding and lower-cases the rest, so a
      padded or upper-case spelling of "title" satisfies the required-column check. */
  lemma HeadersAreNormalised(pre: string, core: string, post: string)
    requires AllSpace(pre) && AllSpace(post) && Trimmed(core)
    ensures NormalizeHeader(pre + core + post) == Lower(core)
    ensures Lower(core) == "title" ==> "title" !in MissingColumns([NormalizeHeader(pre + core + post)])
  {
    StripPadded(pre, core, post);
    LowerIdempotent(core);
    var columns := [NormalizeHeader(pre + core + post)];
    assert Lower(columns[0]) == Lower(core);
  }

  /** " Title " names the title column once normalised. */
  lemma PaddedTitleIsTitle()
    ensures NormalizeHeader(" Title ") == "title"
  {
    HeadersAreNormalised(" ", "Title", " ");
    assert " " + "Title" + " " == " Title ";
    assert Lower("Title") == "title";
  }

  /** "TITLE" names the title column once normalised. */
  lemma UpperTitleIsTitle()
    ensures NormalizeHeader("TITLE") == "title"
  {
    StripOfTrimmed("TITLE");
    assert Lower("TITLE") == "title";
  }

  /** The three required names, lower-cased already, leave nothing missing. */
  lemma RequiredNamesSuffice(columns: seq<string>)
    requires "title" in columns && "year" in columns && "rating" in columns
    ensures MissingColumns(columns) == {}
  {
    assert Lower("title") == "title" && Lower("year") == "year" && Lower("rating") == "rating";
    var i :| 0 <= i < |columns| && columns[i] == "title";
    var j :| 0 <= j < |columns| && columns[j] == "year";
    var k :| 0 <= k < |columns| && columns[k] == "rating";
  }
}
